=== FILE: README.md ===
# Admin dashboard backend — a Dafny model

This project models the business core of a Spring Boot admin-dashboard
backend: the JPA repositories' queries, the order, product and sales-data
services, the order and authentication controllers, and the start-up data
initializer. It proves properties of the model.

The database is an immutable `Store` holding four tables: users, products,
orders and sales data. A table is a sequence of `Row(id, val)` in
primary-key order. An IDENTITY counter next to the rows numbers the rows
saved next, starting at 1.
- Each JPQL query is a pure function over a table's rows.
- Each service write is a function from the store to a `Result`:
  - `Err` carries the error;
  - `Ok` carries the new store, and for a write that saves a row
    (`createOrder`, `updateOrder`, `updateOrderStatus`,
    `updateSalesData`) the saved row as well.

  An `Err` hands the caller the store as it was, which is how the
  class-level `@Transactional` rollback is modelled. A rolled-back
  `createOrder` also advances the order table's identity counter
  (`OrderService.RolledBack`).
- Controller handlers come in two kinds:
  - writing handlers return the store after the request together with the
    HTTP status and body;
  - reading handlers return only what the response carries: a status and
    body (`GetOrderById`, `GetOrderByOrderId`, `Login`, `Register`), the
    listed rows (`ListOrders`), or the figures of a statistics body
    (`RevenueStats`, `OrderStats`).

Representation choices:
- Money is an integer number of cents. Every amount in the system has
  scale 2.
- A `LocalDateTime` is the integer `yyyyMMddHHmm`, truncated to the
  minute, and a `LocalDate` is the integer `yyyyMMdd`. For valid fields, both packings
  preserve calendar order in both directions (`Entities.DateTimeOrder`,
  `Entities.DateOrder`).
- Strings are sequences of characters. Lower-casing is ASCII.
  `String.trim` removes the characters up to `' '` from both ends.

Module layout, following the program's packages:
- Repository modules: `OrderRepository`, `ProductRepository`,
  `SalesDataRepository`, `UserRepository`.
- Service modules: `OrderService`, `ProductService`, `SalesDataService`.
- Controller modules: `OrderController`, `AuthController`.
- `DataInitializer` for start-up seeding.
- Generic building blocks:
  - `Tables`: the id-keyed table, with JPA's save, findById, existsById and deleteById.
  - `Seqs`: filters and folds.
  - `Sorting`: a stable `ORDER BY`.
  - `Grouping`: `GROUP BY` with SUM and COUNT.
  - `Text`: `LOWER`, `LIKE '%t%'` and `trim`.
- `SeedFacts`: the seeded sample data run through the model, with exact
  expected answers.

Parameters stand in for the library calls whose insides are not part of
this model:
- `matches(raw, hash)` for `PasswordEncoder.matches`.
- `token(email)` for `JwtUtil.generateJwtToken`.
- `encode` for `PasswordEncoder.encode`.
- `defaultStatus` for the status a new `User` gets when none is set.

The User, Product, Order and OrderItem entity classes and UserService are
not part of this model. Their record shapes are taken from how the modelled
code uses them.

Two modelling decisions come straight from the code:
- **Order creation is all-or-nothing.** `OrderService` is `@Transactional`
  at class level, and a missing product throws a `RuntimeException`,
  which rolls back the saved order and any sales already raised.
- **Top-selling needs a limit of at least 1.**
  `ProductRepository.FindTopSellingProducts` requires `limit >= 1`,
  because `PageRequest.of(0, limit)` throws for a smaller size.

## Model

All source paths are relative to `backend/src/main/java/com/admin/dashboard/`.

| member | source | states |
|---|---|---|
| OrderRepository.FindByOrderId | backend/src/main/java/com/admin/dashboard/repository/OrderRepository.java:19 | empty iff no order has the code; fails with the incorrect-result-size error iff two orders share the code; otherwise the one order with the code |
| OrderRepository.FindBySearchTerm | backend/src/main/java/com/admin/dashboard/repository/OrderRepository.java:21-24 | an order matches iff the lower-cased term occurs as a substring of the lower-cased order code or customer |
| OrderRepository.FindByStatus | backend/src/main/java/com/admin/dashboard/repository/OrderRepository.java:26 | exactly the orders with that status |
| OrderRepository.FindOrdersByDateRange | backend/src/main/java/com/admin/dashboard/repository/OrderRepository.java:28-30 | an order is returned iff start ≤ orderDate ≤ end, both bounds included; start > end gives nothing |
| OrderRepository.GetTotalRevenueByDateRange | backend/src/main/java/com/admin/dashboard/repository/OrderRepository.java:32-34 | SUM is absent iff no order lies in the range; otherwise it is the sum of the totals of exactly the orders in range |
| OrderRepository.CountByStatus | backend/src/main/java/com/admin/dashboard/repository/OrderRepository.java:36-37 | the count equals the number of orders with that status |
| OrderRepository.StatusCountsPartition | backend/src/main/java/com/admin/dashboard/repository/OrderRepository.java:36-37 | the four per-status counts add up to the number of orders |
| OrderRepository.CountOrdersByStatus | backend/src/main/java/com/admin/dashboard/repository/OrderRepository.java:39-40 | one group per status present, keys distinct, each group equal to countByStatus, the counts summing to the number of orders |
| OrderRepository.GetTotalRevenue | backend/src/main/java/com/admin/dashboard/repository/OrderRepository.java:42-43 | SUM is absent iff the table is empty, otherwise it is the sum of all totals |
| ProductRepository.FindBySearchTerm | backend/src/main/java/com/admin/dashboard/repository/ProductRepository.java:16-19 | a product matches iff the lower-cased term is a substring of the lower-cased name or category |
| ProductRepository.FindByCategory | backend/src/main/java/com/admin/dashboard/repository/ProductRepository.java:21 | exactly the products whose category equals the given one |
| ProductRepository.FindLowStockProducts | backend/src/main/java/com/admin/dashboard/repository/ProductRepository.java:23-24 | exactly the products with stock strictly below the threshold |
| ProductRepository.CountProductsByCategory | backend/src/main/java/com/admin/dashboard/repository/ProductRepository.java:26-27 | one group per category present, keys distinct, each the number of products in that category, the counts summing to the number of products |
| ProductRepository.FindTopSellingProducts | backend/src/main/java/com/admin/dashboard/repository/ProductRepository.java:29-30 | the result has length min(limit, number of products), is ordered by sales from highest, is drawn from the products, and no product left out sold more than any product kept |
| ProductRepository.CountProductsInStock | backend/src/main/java/com/admin/dashboard/repository/ProductRepository.java:32-33 | the in-stock count and the number of products with stock below 1 add up to the number of products |
| SalesDataRepository.FindSalesDataByDateRange | backend/src/main/java/com/admin/dashboard/repository/SalesDataRepository.java:15-17 | a row is returned iff start ≤ saleDate ≤ end; the result is the in-range rows reordered by ascending date |
| SalesDataRepository.FindByCategory | backend/src/main/java/com/admin/dashboard/repository/SalesDataRepository.java:19-20 | a row is returned iff it has a category equal to the given one, so a row without a category never matches; the result is ordered by ascending date |
| SalesDataRepository.GetSalesByCategory | backend/src/main/java/com/admin/dashboard/repository/SalesDataRepository.java:22-23 | one group per category present, the absent category included as its own key; each group holds the sum of exactly its rows' sales; the groups add up to all sales |
| SalesDataRepository.FindAllOrderByDateDesc | backend/src/main/java/com/admin/dashboard/repository/SalesDataRepository.java:25-26 | a permutation of all rows ordered by sale date, newest first |
| UserRepository.FindByEmail | backend/src/main/java/com/admin/dashboard/repository/UserRepository.java:15-17 | empty iff existsByEmail is false; fails with the incorrect-result-size error iff two users share the email; otherwise the one user with that email |
| UserRepository.FindBySearchTerm | backend/src/main/java/com/admin/dashboard/repository/UserRepository.java:19-22 | a user matches iff the lower-cased term is a substring of the lower-cased name or email |
| UserRepository.CountActiveUsers | backend/src/main/java/com/admin/dashboard/repository/UserRepository.java:24-25 | the count is the number of users whose status is ACTIVE |
| UserRepository.CountByRole | backend/src/main/java/com/admin/dashboard/repository/UserRepository.java:27-28 | the count is the number of users with that role |
| UserRepository.RoleCountsPartition | backend/src/main/java/com/admin/dashboard/repository/UserRepository.java:27-28 | the three role counts add up to the number of users |
| SalesDataEntity.New | backend/src/main/java/com/admin/dashboard/entity/SalesData.java:29-33 | the three-argument constructor equals the four-argument one with an absent category |
| SalesDataEntity.NewWithCategory | backend/src/main/java/com/admin/dashboard/entity/SalesData.java:35-40 | all four fields take the arguments |
| Tables.Insert | backend/src/main/java/com/admin/dashboard/entity/SalesData.java:10-12 | the store, not the record, assigns the id; the new row goes last with the saved value and an id no existing row has, and the table stays valid |
| Tables.FindOne | backend/src/main/java/com/admin/dashboard/repository/OrderRepository.java:19 | a finder returning `Optional` is empty iff no row qualifies, fails iff two rows qualify, and otherwise gives the only row that qualifies |
| Tables.FindById | backend/src/main/java/com/admin/dashboard/service/OrderService.java:35-37 | absent iff no row has the id; a found value is stored under that id |
| Tables.Delete | backend/src/main/java/com/admin/dashboard/service/OrderService.java:95 | deleteById keeps exactly the rows with another id, one row fewer when the id existed |
| Text.LikeMeaning | backend/src/main/java/com/admin/dashboard/repository/OrderRepository.java:22-23 | `LOWER(field) LIKE LOWER(CONCAT('%', term, '%'))` holds iff the lower-cased term is a substring of the lower-cased field |
| Text.BlankMeaning | backend/src/main/java/com/admin/dashboard/service/OrderService.java:44 | `trim().isEmpty()` holds iff every character is a space or control character |
| Text.Trim | backend/src/main/java/com/admin/dashboard/service/OrderService.java:47 | the result is a slice of the input with no space at either end and only spaces cut away |
| Sorting.Sort | backend/src/main/java/com/admin/dashboard/repository/ProductRepository.java:29 | `ORDER BY` yields a permutation of the input, ordered by the key |
| Grouping.GroupSum | backend/src/main/java/com/admin/dashboard/repository/SalesDataRepository.java:22 | `GROUP BY`: distinct keys, exactly the keys present, each value the sum over exactly the rows with that key, the total equal to the sum over all rows |
| Entities.DateTimeOrder | backend/src/main/java/com/admin/dashboard/repository/OrderRepository.java:28-30 | for valid fields, one packed timestamp is smaller than another iff its (year, month, day, hour, minute) comes first in calendar order, and two are equal iff every field is, so `BETWEEN` on packed values agrees with `BETWEEN` on the date-times |
| Entities.DateOrder | backend/src/main/java/com/admin/dashboard/repository/SalesDataRepository.java:15-17 | the same for packed `LocalDate`s: smaller iff earlier in calendar order, equal iff the same date |
| OrderService.SearchOrders | backend/src/main/java/com/admin/dashboard/service/OrderService.java:43-48 | a missing or blank term gives every order; otherwise the orders matching the trimmed term |
| OrderService.ApplySales | backend/src/main/java/com/admin/dashboard/service/OrderService.java:64-67 | it fails with "Product not found" iff some item names a missing product; otherwise each product's sales rise by the sum of the quantities of the items naming it, and nothing but products changes |
| OrderService.CreateOrder | backend/src/main/java/com/admin/dashboard/service/OrderService.java:54-70 | fails iff an item names a missing product; otherwise the saved order carries the sum of the item totals, is appended under a fresh id, raises each product's sales by its quantities, takes the next identity value as its id, and leaves users and sales data alone |
| OrderService.CallerTotalIgnored | backend/src/main/java/com/admin/dashboard/service/OrderService.java:54-62 | the total the caller sent has no effect on the outcome |
| OrderService.EmptyOrderHasZeroTotal | backend/src/main/java/com/admin/dashboard/service/OrderService.java:56-58 | an order without items is created with total 0 and no product changes |
| OrderService.UpdateOrder | backend/src/main/java/com/admin/dashboard/service/OrderService.java:72-81 | it fails with "Order not found" iff the id is missing; otherwise customer, total and status are copied while order code, date and items keep their values, and no other row or table changes |
| OrderService.UpdateOrderStatus | backend/src/main/java/com/admin/dashboard/service/OrderService.java:83-89 | any status may follow any other; it fails iff the id is missing; otherwise only that order's status changes |
| OrderService.DeleteOrder | backend/src/main/java/com/admin/dashboard/service/OrderService.java:91-96 | it fails iff the id is missing; otherwise exactly that order is removed and nothing else changes |
| OrderService.GetTotalRevenueByDateRange | backend/src/main/java/com/admin/dashboard/service/OrderService.java:102-105 | the sum of the totals in the inclusive range, 0 when no order is in range |
| OrderService.GetTotalRevenue | backend/src/main/java/com/admin/dashboard/service/OrderService.java:107-110 | the sum of all totals, 0 when there are no orders |
| ProductService.SearchProducts | backend/src/main/java/com/admin/dashboard/service/ProductService.java:34-39 | a missing or blank term gives every product; otherwise the products matching the trimmed term |
| ProductService.UpdateProduct | backend/src/main/java/com/admin/dashboard/service/ProductService.java:49-61 | it fails iff the id is missing; otherwise the product takes every field of the details except sales, which keeps its value, and the id stays |
| ProductService.DeleteProduct | backend/src/main/java/com/admin/dashboard/service/ProductService.java:63-68 | it fails iff the id is missing; otherwise exactly that product is removed |
| ProductService.GetLowStockProducts | backend/src/main/java/com/admin/dashboard/service/ProductService.java:70-72 | a missing threshold means 10; a given one filters stock strictly below it |
| ProductService.UpdateProductSales | backend/src/main/java/com/admin/dashboard/service/ProductService.java:86-92 | it fails with "Product not found" iff the id is missing; otherwise exactly `additionalSales` is added to that product's counter and nothing else changes |
| SalesDataService.UpdateSalesData | backend/src/main/java/com/admin/dashboard/service/SalesDataService.java:40-50 | it fails with "Sales data not found" iff the id is missing; otherwise the row becomes the details under the same id, an absent category included |
| SalesDataService.DeleteSalesData | backend/src/main/java/com/admin/dashboard/service/SalesDataService.java:52-57 | it fails iff the id is missing; otherwise exactly that row is removed |
| OrderController.ParseSortDir | backend/src/main/java/com/admin/dashboard/controller/OrderController.java:35-39 | descending iff the parameter is missing or empty (Spring then uses its default "desc") or is "desc" in any mix of cases; any other string is ascending |
| OrderController.ListOrders | backend/src/main/java/com/admin/dashboard/controller/OrderController.java:42-47 | an absent or whitespace-only search lists every order; otherwise the search matches are listed |
| OrderController.ListOrdersAgreesWithService | backend/src/main/java/com/admin/dashboard/controller/OrderController.java:43-47 | the controller's blank check gives the same rows as the service's |
| OrderController.GetOrderById | backend/src/main/java/com/admin/dashboard/controller/OrderController.java:58-63 | not-found with no body iff the id is missing; otherwise OK with the stored order |
| OrderController.GetOrderByOrderId | backend/src/main/java/com/admin/dashboard/controller/OrderController.java:65-70 | not-found iff no order has the code; a server error iff two orders share it, because the repository's exception escapes; otherwise OK with the only order carrying it |
| OrderController.CreateOrder | backend/src/main/java/com/admin/dashboard/controller/OrderController.java:72-76 | CREATED iff every item's product exists, with the saved order as body; otherwise the exception becomes a server error, and the store is rolled back except that the order id drawn by the insert stays used |
| OrderController.FailedCreateConsumesId | backend/src/main/java/com/admin/dashboard/service/OrderService.java:62-67 | after a creation that fails on a missing product, the next successful creation gets the id after the one the failed order drew |
| OrderController.UpdateOrder | backend/src/main/java/com/admin/dashboard/controller/OrderController.java:78-86 | not-found iff the id is missing, and then nothing changes; otherwise OK with the copied fields |
| OrderController.UpdateOrderStatus | backend/src/main/java/com/admin/dashboard/controller/OrderController.java:88-96 | not-found iff the id is missing, and then nothing changes; otherwise OK with the new status |
| OrderController.DeleteOrder | backend/src/main/java/com/admin/dashboard/controller/OrderController.java:98-106 | not-found iff the id is missing, and then nothing changes; otherwise no-content with exactly that order removed |
| OrderController.RevenueStats | backend/src/main/java/com/admin/dashboard/controller/OrderController.java:122-138 | period "custom" iff both dates are given, with the inclusive-range revenue; otherwise "all-time" with the all-time revenue |
| OrderController.OrderStats | backend/src/main/java/com/admin/dashboard/controller/OrderController.java:140-152 | the total count, the four status counts (which add up to the total), the revenue, and the grouped counts, whose keys are distinct and whose values agree with the status counts |
| AuthController.Login | backend/src/main/java/com/admin/dashboard/controller/AuthController.java:33-56 | a server error iff two users share the email; an unknown email answers "User not found!"; an OK reply carries the token for the email and the id, name, email and role of a user with that email, matching password and ACTIVE status |
| AuthController.LoginDecision | backend/src/main/java/com/admin/dashboard/controller/AuthController.java:43-55 | when no other user shares the email, a wrong password answers "Invalid credentials!" whatever the status; a right password on an inactive account answers "Account is inactive!"; otherwise OK |
| AuthController.LoginSucceedsIff | backend/src/main/java/com/admin/dashboard/controller/AuthController.java:33-56 | login succeeds iff the email is not shared and some user has it, a matching password and ACTIVE status |
| AuthController.JoinMessages | backend/src/main/java/com/admin/dashboard/controller/AuthController.java:62-65 | a non-empty join ends in ". ", and the text is two characters longer per message |
| AuthController.JoinOne | backend/src/main/java/com/admin/dashboard/controller/AuthController.java:63-64 | one message joins to that message followed by ". " |
| AuthController.JoinAppend | backend/src/main/java/com/admin/dashboard/controller/AuthController.java:62-65 | joining two runs of messages is the concatenation of their joins, so with JoinOne the text is every message in order, each followed by ". " |
| AuthController.JoinFront | backend/src/main/java/com/admin/dashboard/controller/AuthController.java:63-64 | read from the front, the text is the first message, ". ", then the join of the rest |
| AuthController.RegistrationMessageDropsFinalSpace | backend/src/main/java/com/admin/dashboard/controller/AuthController.java:62-67 | when the first message does not start with a space, trimming removes exactly the final space |
| AuthController.Register | backend/src/main/java/com/admin/dashboard/controller/AuthController.java:59-80 | validation errors answer first with the trimmed joined message; then a create failure answers its message; OK iff there are no errors and the user was created, with a token for the created user's email |
| DataInitializer.SeedIfEmpty | backend/src/main/java/com/admin/dashboard/config/DataInitializer.java:42-54 | an empty table receives the seed rows numbered from the next id; a non-empty table is unchanged |
| DataInitializer.Run | backend/src/main/java/com/admin/dashboard/config/DataInitializer.java:33-39 | each of the four tables is seeded only when empty; afterwards all four are non-empty |
| DataInitializer.RunIdempotent | backend/src/main/java/com/admin/dashboard/config/DataInitializer.java:33-39 | running initialization a second time changes nothing |
| DataInitializer.Seeded | backend/src/main/java/com/admin/dashboard/config/DataInitializer.java:33-39 | on an empty database each table ends up holding its seed values, numbered from 1 |
| DataInitializer.SeedUsers | backend/src/main/java/com/admin/dashboard/config/DataInitializer.java:44-54 | six users are seeded (their roles and statuses are stated by SeedFacts.SeededRoleCount and SeedFacts.SeededActiveCount) |
| DataInitializer.SeedProducts | backend/src/main/java/com/admin/dashboard/config/DataInitializer.java:65-81 | five products are seeded (their sales and stocks are stated by the SeedFacts product lemmas) |
| DataInitializer.SeedOrders | backend/src/main/java/com/admin/dashboard/config/DataInitializer.java:87-119 | eight orders are seeded (their totals, dates and statuses are stated by the SeedFacts order lemmas) |
| DataInitializer.SeedSalesData | backend/src/main/java/com/admin/dashboard/config/DataInitializer.java:125-140 | twelve sales rows are seeded (their sum and categories are stated by the SeedFacts sales lemmas) |
| SeedFacts.SeededOrderRows | backend/src/main/java/com/admin/dashboard/config/DataInitializer.java:119 | the seeded orders table holds the eight orders as rows 1 to 8 |
| SeedFacts.SeededTotalRevenue | backend/src/main/java/com/admin/dashboard/config/DataInitializer.java:87-118 | all-time revenue of the seeded orders is 2685.15 |
| SeedFacts.SeededRange | backend/src/main/java/com/admin/dashboard/config/DataInitializer.java:87-97 | the range from ORD001's time to ORD003's time holds exactly the first three orders, so both bounds are included |
| SeedFacts.SeededRangeRevenue | backend/src/main/java/com/admin/dashboard/config/DataInitializer.java:87-97 | revenue over that range is 809.90 |
| SeedFacts.SeededStatusCount | backend/src/main/java/com/admin/dashboard/config/DataInitializer.java:87-118 | DELIVERED 3, PROCESSING 2, SHIPPED 2, PENDING 1 |
| SeedFacts.SeededOrderStats | backend/src/main/java/com/admin/dashboard/controller/OrderController.java:140-152 | on the seeded orders, the stats endpoint reports 8 orders, 3/2/2/1 by status, and revenue 2685.15 |
| SeedFacts.SeededProductRows | backend/src/main/java/com/admin/dashboard/config/DataInitializer.java:81 | the seeded products table holds the five products as rows 1 to 5 |
| SeedFacts.SeededTopThree | backend/src/main/java/com/admin/dashboard/config/DataInitializer.java:65-79 | the top three by sales are the earbuds (1200), the yoga mat (950) and the wallet (800), in that order |
| SeedFacts.SeededNoLowStock | backend/src/main/java/com/admin/dashboard/config/DataInitializer.java:65-78 | the seeded stocks leave low-stock at the default threshold empty |
| SeedFacts.SeededInStockCount | backend/src/main/java/com/admin/dashboard/config/DataInitializer.java:65-78 | all five seeded products count as in stock |
| SeedFacts.SeededCreateOrder | backend/src/main/java/com/admin/dashboard/service/OrderService.java:54-70 | on the seeded catalogue, two earbuds and one wallet are created with total 159.97 whatever total was sent; earbud sales go 1200→1202 and wallet sales 800→801; the other products keep theirs |
| SeedFacts.SeededUserRows | backend/src/main/java/com/admin/dashboard/config/DataInitializer.java:54 | the seeded users table holds the six users as rows 1 to 6 |
| SeedFacts.SeededRoleCount | backend/src/main/java/com/admin/dashboard/config/DataInitializer.java:44-54 | 3 ADMIN, 2 CUSTOMER, 1 MODERATOR |
| SeedFacts.SeededActiveCount | backend/src/main/java/com/admin/dashboard/config/DataInitializer.java:44-54 | Bob alone is set INACTIVE, so 5 users are active when the default status is ACTIVE (0 otherwise) |
| SeedFacts.SeededSalesRows | backend/src/main/java/com/admin/dashboard/config/DataInitializer.java:140 | the seeded sales table holds the twelve rows as rows 1 to 12 |
| SeedFacts.SalesAmounts | backend/src/main/java/com/admin/dashboard/config/DataInitializer.java:126-137 | the twelve monthly amounts add up to 70000.00 |
| SeedFacts.SeededAmountsFit | backend/src/main/java/com/admin/dashboard/config/DataInitializer.java:126-137 | every seeded amount is positive and fits the NUMERIC(10,2) `sales` column declared at entity/SalesData.java:17-18 |
| SeedFacts.SeededSalesByCategory | backend/src/main/java/com/admin/dashboard/config/DataInitializer.java:125-137 | every seeded row comes from the category-less constructor, so grouping by category gives the single absent-category group of 70000.00 |

## Left out

- Paging and sorting by a named field: `Pageable`, the page arithmetic (page number, total items, total pages) and `Sort.by(sortBy)` are left out. List handlers return the rows a page is cut from.
- `LIKE` wildcards: a `%` or `_` inside a search term is matched as a plain character, not as a wildcard.
- Case folding: database collation and Unicode case folding are left out. Lower-casing is ASCII only.
- OrderController.ParseSortDir: Java's `equalsIgnoreCase` also accepts some non-ASCII characters (for example U+017F, the long s, matches 's'). The model accepts only the sixteen ASCII spellings.
- Concurrency: the read-modify-write race on a product's sales counter is left out, because the model is sequential.
- Console logging in the data initializer is left out.
- Amounts are not checked against the DECIMAL(10,2) column: the database's rejection of an amount too wide for the column is left out. `SalesDataEntity.FitsColumn` states the bound, and `SeedFacts.SeededAmountsFit` shows every seeded amount meets it.
- Java `int` overflow of a product's sales counter: sales are unbounded integers.
- ProductService.UpdateProductSales and OrderService.CreateOrder: the Product and OrderItem entities are not part of this model, so whether a product's `sales` or an item's quantity, product or `totalPrice` may be null cannot be seen. The model takes them to be non-null. In the code, a null `sales` makes `getSales() + additionalSales` throw a NullPointerException, so `updateProductSales` fails and `createOrder` rolls back with a server error; a null item field fails the same way. The model's "fails iff a product is missing" does not cover these failures.
- UserService is not part of this model:
  - `getUserByEmail` is taken to be `findByEmail`;
  - `createUser`'s outcome is the `created` input of `AuthController.Register`.
- Bean validation (`@Valid`): its rules are not visible. Registration receives the `hasErrors` flag and the field messages as inputs.
- Password matching, password encoding and token generation are the parameters `matches`, `encode` and `token`.
- The entity classes for User, Product, Order and OrderItem are not part of this model:
  - an item's `totalPrice` is a given field, not quantity × price;
  - a new user's default status is the parameter `defaultStatus`.
- Controllers other than the order and authentication controllers are left out; they route requests to functions modelled here. The same goes for the React front end.
- Plain delegations are modelled by the member they delegate to. For example:
  - `getAllOrders`, `getAllProducts`, `getOrderById`, `getProductById` and `getSalesDataById` are the table's rows or `Tables.FindById`;
  - `getOrdersByStatus`, `getOrdersByDateRange`, `getOrderCountByStatus`, `getProductsByCategory`, `getProductCountByCategory`, `getTopSellingProducts`, `getProductsInStockCount`, `getAllSalesData`, `getSalesDataByDateRange`, `getSalesDataByCategory` and `getSalesByCategory` are the repository queries;
  - `createProduct` and `createSalesData` are `Tables.Insert` when the request body carries no id.
- Tables.Insert: a create request whose body carries an `id` goes through the no-argument constructor and `setId`, and `save` then merges it onto the row with that id instead of appending. This applies to `createOrder`, `createProduct` and `createSalesData`. The model always inserts a new row under the next identity value.
- Timestamps are truncated to the minute, and dates and times travel as packed integers. Range bounds with seconds or nanoseconds, which an ISO `DATE_TIME` request parameter can carry, are not modelled: for example, a start bound of 10:00:30 excludes an order placed at 10:00 in the code but not in the model.
- ProductRepository.FindTopSellingProducts: it requires `limit >= 1`, because `PageRequest.of(0, limit)` throws for a smaller size.
- DataInitializer.SeedUsers, DataInitializer.SeedProducts, DataInitializer.SeedOrders and DataInitializer.SeedSalesData: their own contracts state only how many rows they hold. The seeded values are stated by the SeedFacts lemmas listed above.

=== FILE: auth_controller.dfy ===
/** AuthController: the login decision chain and the registration replies.
    Password checking and token generation are library calls whose insides
    are not modelled: they are the parameters `matches` (raw password,
    stored hash) and `token` (email to token). */
module AuthController {
  import opened Wrappers
  import opened Tables
  import opened Seqs
  import opened Text
  import opened Entities
  import opened Http
  import UserRepository

  datatype AuthResponse = AuthResponse(token: string, id: Id, name: string, email: string, role: Role)

  /** A response body: the issued token, or a `{"message": ...}` map. */
  datatype Reply = Authenticated(auth: AuthResponse) | Message(message: string)

  const UserNotFound := "User not found!"
  const InvalidCredentials := "Invalid credentials!"
  const AccountInactive := "Account is inactive!"

  function Issue(u: Row<User>, token: string -> string): AuthResponse
  {
    AuthResponse(token(u.val.email), u.id, u.val.name, u.val.email, u.val.role)
  }

  /** `POST /auth/login`: the user must exist, then the password must match,
      then the account must be active; the first failed check answers. An
      email two users share makes the finder throw, which escapes the
      handler as a server error. */
  function Login(users: seq<Row<User>>, email: string, password: string,
                 matches: (string, string) -> bool, token: string -> string): (r: Response<Reply>)
    ensures r.status == INTERNAL_SERVER_ERROR <==> UserRepository.SharedEmail(users, email)
    ensures r.status != INTERNAL_SERVER_ERROR ==> r.body.Some? && (r.status == OK || r.status == BAD_REQUEST)
    ensures !UserRepository.ExistsByEmail(users, email) ==> r == WithBody(BAD_REQUEST, Message(UserNotFound))
    ensures r.status == OK ==> exists u :: u in users && r.body.value == Authenticated(Issue(u, token))
                                && u.val.email == email && matches(password, u.val.password) && u.val.status == ACTIVE
    ensures r.status == OK ==> r.body.value.auth.token == token(email)
  {
    match UserRepository.FindByEmail(users, email)
    case Err(_) => NoBody(INTERNAL_SERVER_ERROR)
    case Ok(None) => WithBody(BAD_REQUEST, Message(UserNotFound))
    case Ok(Some(u)) =>
      if !matches(password, u.val.password) then WithBody(BAD_REQUEST, Message(InvalidCredentials))
      else if u.val.status != ACTIVE then WithBody(BAD_REQUEST, Message(AccountInactive))
      else WithBody(OK, Authenticated(Issue(u, token)))
  }

  /** When no other user shares the email, the user it names decides login
      alone: its password is checked before its status, so a wrong password
      on an inactive account reports the password. */
  lemma LoginDecision(users: seq<Row<User>>, email: string, password: string,
                      matches: (string, string) -> bool, token: string -> string, u: Row<User>)
    requires !UserRepository.SharedEmail(users, email)
    requires u in users && u.val.email == email
    ensures var r := Login(users, email, password, matches, token);
      && (!matches(password, u.val.password) ==> r == WithBody(BAD_REQUEST, Message(InvalidCredentials)))
      && (matches(password, u.val.password) && u.val.status != ACTIVE ==> r == WithBody(BAD_REQUEST, Message(AccountInactive)))
      && (matches(password, u.val.password) && u.val.status == ACTIVE ==> r == WithBody(OK, Authenticated(Issue(u, token))))
  {
    var i :| 0 <= i < |users| && users[i] == u;
    assert UserRepository.ExistsByEmail(users, email);
  }

  /** Login succeeds exactly when the email is not shared and some user has
      it, a matching password and the ACTIVE status. */
  lemma LoginSucceedsIff(users: seq<Row<User>>, email: string, password: string,
                         matches: (string, string) -> bool, token: string -> string)
    ensures Login(users, email, password, matches, token).status == OK <==>
              && !UserRepository.SharedEmail(users, email)
              && exists u :: u in users && u.val.email == email && matches(password, u.val.password) && u.val.status == ACTIVE
  {
    if !UserRepository.SharedEmail(users, email) && exists u :: u in users && u.val.email == email && matches(password, u.val.password) && u.val.status == ACTIVE {
      var u :| u in users && u.val.email == email && matches(password, u.val.password) && u.val.status == ACTIVE;
      LoginDecision(users, email, password, matches, token, u);
    }
  }

  /** Each field message followed by ". ", in order. */
  function JoinMessages(messages: seq<string>): (r: string)
    ensures messages != [] ==> |r| >= 2 && r[|r| - 2..] == ". "
    ensures |r| == SumOf(messages, MessageLength)
  {
    if messages == [] then ""
    else JoinMessages(Init(messages)) + Last(messages) + ". "
  }

  /** One message is that message followed by ". ". */
  lemma JoinOne(m: string)
    ensures JoinMessages([m]) == m + ". "
  {
    assert Init([m]) == [];
  }

  /** The last message and its ". " come last. */
  lemma JoinLast(messages: seq<string>)
    requires messages != []
    ensures JoinMessages(messages) == JoinMessages(Init(messages)) + (Last(messages) + ". ")
  {
  }

  /** Joining is a homomorphism: joining two runs of messages is joining
      each and concatenating, so with `JoinOne` the text is exactly every
      message, in order, each followed by ". ". */
  lemma {:induction false} JoinAppend(a: seq<string>, b: seq<string>)
    ensures JoinMessages(a + b) == JoinMessages(a) + JoinMessages(b)
  {
    if b == [] {
      assert a + b == a;
    } else {
      InitAppend(a, b);
      JoinAppend(a, Init(b));
      JoinLast(a + b);
      JoinLast(b);
    }
  }

  /** Read from the front: the first message, its ". ", then the rest. */
  lemma JoinFront(messages: seq<string>)
    requires messages != []
    ensures JoinMessages(messages) == messages[0] + ". " + JoinMessages(messages[1..])
  {
    assert messages == [messages[0]] + messages[1..];
    JoinAppend([messages[0]], messages[1..]);
    JoinOne(messages[0]);
  }

  function MessageLength(m: string): int
  {
    |m| + 2
  }

  /** The registration error message: the joined field messages, trimmed. */
  function RegistrationMessage(messages: seq<string>): string
  {
    Trim(JoinMessages(messages))
  }

  /** Trimming removes exactly the final space when the first message does
      not start with a space: the message ends in the last full stop. */
  lemma RegistrationMessageDropsFinalSpace(messages: seq<string>)
    requires messages != []
    requires messages[0] == [] || !IsSpace(messages[0][0])
    ensures var joined := JoinMessages(messages);
            RegistrationMessage(messages) == joined[..|joined| - 1]
  {
    var joined := JoinMessages(messages);
    JoinedStart(messages);
    assert joined[0] == (messages[0] + ".")[0];
    TrimDropsFinalSpace(joined);
  }

  /** Trimming a string that starts with a non-space and ends in ". "
      removes the final space only. */
  lemma TrimDropsFinalSpace(s: string)
    requires |s| >= 2 && !IsSpace(s[0]) && s[|s| - 2..] == ". "
    ensures Trim(s) == s[..|s| - 1]
  {
    var n := |s|;
    assert s[n - 2] == '.' && s[n - 1] == ' ';
    var r := Trim(s);
    var a :| TrimmedAt(s, a, r);
    assert a == 0;
    assert |r| >= n - 1;
    assert |r| != n;
  }

  /** The joined text starts with the first message, then its full stop. */
  lemma {:induction false} JoinedStart(messages: seq<string>)
    requires messages != []
    ensures var joined := JoinMessages(messages);
            |joined| > |messages[0]| && joined[..|messages[0]| + 1] == messages[0] + "."
  {
    if |messages| > 1 {
      JoinedStart(Init(messages));
      var prev := JoinMessages(Init(messages));
      assert Init(messages)[0] == messages[0];
      assert JoinMessages(messages)[..|messages[0]| + 1] == prev[..|messages[0]| + 1];
    }
  }

  /** `POST /auth/register`. Validation errors answer first, with the joined
      field messages (a failure without field messages gives ""). Otherwise
      `created` is what the user service returned: its failure message is
      a bad request, the created user gets a token for its email. */
  function Register(hasErrors: bool, fieldMessages: seq<string>, created: Result<Row<User>, string>,
                    token: string -> string): (r: Response<Reply>)
    ensures r.body.Some?
    ensures r.status == OK <==> !hasErrors && created.Ok?
    ensures hasErrors ==> r == WithBody(BAD_REQUEST, Message(Trim(JoinMessages(fieldMessages))))
    ensures !hasErrors && created.Err? ==> r == WithBody(BAD_REQUEST, Message(created.error))
    ensures r.status == OK ==> r.body.value == Authenticated(Issue(created.value, token))
                               && r.body.value.auth.token == token(created.value.val.email)
  {
    if hasErrors then WithBody(BAD_REQUEST, Message(RegistrationMessage(fieldMessages)))
    else match created
      case Err(message) => WithBody(BAD_REQUEST, Message(message))
      case Ok(u) => WithBody(OK, Authenticated(Issue(u, token)))
  }
}

=== FILE: data_initializer.dfy ===
/** DataInitializer: at start-up each table is filled with sample rows, but
    only when it is empty. Password encoding is the parameter `encode`; the
    status a new User gets by default is the parameter `defaultStatus`
    (only Bob's INACTIVE status is set explicitly). */
module DataInitializer {
  import opened Wrappers
  import opened Tables
  import opened Entities
  import opened SalesDataEntity
  import opened Persistence

  function SeedUsers(encode: string -> string, defaultStatus: UserStatus): (r: seq<User>)
    ensures |r| == 6
  {
    [ User("Admin User", "admin@example.com", encode("admin123"), ADMIN, defaultStatus),
      User("John Doe", "john@example.com", encode("password123"), ADMIN, defaultStatus),
      User("Jane Smith", "jane@example.com", encode("password123"), ADMIN, defaultStatus),
      User("Bob Johnson", "bob@example.com", encode("password123"), CUSTOMER, INACTIVE),
      User("Alice Brown", "alice@example.com", encode("password123"), CUSTOMER, defaultStatus),
      User("Charlie Wilson", "charlie@example.com", encode("password123"), MODERATOR, defaultStatus) ]
  }

  function SeedProducts(): (r: seq<Product>)
    ensures |r| == 5
  {
    [ Product("Wireless Earbuds", "Electronics", 5999, 143, 1200, None,
              Some("https://images.unsplash.com/photo-1627989580309-bfaf3e58af6f")),
      Product("Leather Wallet", "Accessories", 3999, 89, 800, None, None),
      Product("Smart Watch", "Electronics", 19999, 56, 650, None, None),
      Product("Yoga Mat", "Fitness", 2999, 210, 950, None, None),
      Product("Coffee Maker", "Home", 7999, 78, 720, None, None) ]
  }

  /** The seeded orders carry no items. */
  function SeedOrders(): (r: seq<Order>)
    ensures |r| == 8
  {
    [ Order("ORD001", "John Doe", 23540, DELIVERED, DateTime(2023, 7, 1, 10, 0), []),
      Order("ORD002", "Jane Smith", 41200, PROCESSING, DateTime(2023, 7, 2, 14, 30), []),
      Order("ORD003", "Bob Johnson", 16250, SHIPPED, DateTime(2023, 7, 3, 9, 15), []),
      Order("ORD004", "Alice Brown", 75020, PENDING, DateTime(2023, 7, 4, 16, 45), []),
      Order("ORD005", "Charlie Wilson", 9580, DELIVERED, DateTime(2023, 7, 5, 11, 20), []),
      Order("ORD006", "Eva Martinez", 31075, PROCESSING, DateTime(2023, 7, 6, 13, 10), []),
      Order("ORD007", "David Lee", 52890, SHIPPED, DateTime(2023, 7, 7, 15, 30), []),
      Order("ORD008", "Grace Taylor", 18960, DELIVERED, DateTime(2023, 7, 8, 12, 0), []) ]
  }

  /** Twelve monthly rows, all built without a category. */
  function SeedSalesData(): (r: seq<SalesData>)
    ensures |r| == 12
  {
    [ New("Jul", 420000, LocalDate(2023, 7, 1)),
      New("Aug", 380000, LocalDate(2023, 8, 1)),
      New("Sep", 510000, LocalDate(2023, 9, 1)),
      New("Oct", 460000, LocalDate(2023, 10, 1)),
      New("Nov", 540000, LocalDate(2023, 11, 1)),
      New("Dec", 720000, LocalDate(2023, 12, 1)),
      New("Jan", 610000, LocalDate(2024, 1, 1)),
      New("Feb", 590000, LocalDate(2024, 2, 1)),
      New("Mar", 680000, LocalDate(2024, 3, 1)),
      New("Apr", 630000, LocalDate(2024, 4, 1)),
      New("May", 710000, LocalDate(2024, 5, 1)),
      New("Jun", 750000, LocalDate(2024, 6, 1)) ]
  }

  /** `vs` saved in order, numbered from `first`. */
  function Numbered<T>(vs: seq<T>, first: Id): (r: seq<Row<T>>)
    ensures |r| == |vs|
    ensures forall i :: 0 <= i < |vs| ==> r[i].id == first + i && r[i].val == vs[i]
  {
    seq(|vs|, i requires 0 <= i < |vs| => Row(first + i, vs[i]))
  }

  /** `count() == 0` guards a `saveAll` of the seed rows. */
  function SeedIfEmpty<T>(t: Table<T>, seed: seq<T>): (r: Table<T>)
    ensures |t.rows| == 0 ==> r.rows == Numbered(seed, t.nextId) && r.nextId == t.nextId + |seed|
    ensures |t.rows| != 0 ==> r == t
    ensures Valid(t) ==> Valid(r)
  {
    if |t.rows| == 0 then
      var r := InsertAll(t, seed);
      assert r.rows == Numbered(seed, t.nextId);
      r
    else t
  }

  /** `run`: users, products, orders and sales data, each seeded only into
      an empty table. */
  function Run(s: Store, encode: string -> string, defaultStatus: UserStatus): (r: Store)
    ensures |s.users.rows| == 0 ==> r.users.rows == Numbered(SeedUsers(encode, defaultStatus), s.users.nextId)
    ensures |s.products.rows| == 0 ==> r.products.rows == Numbered(SeedProducts(), s.products.nextId)
    ensures |s.orders.rows| == 0 ==> r.orders.rows == Numbered(SeedOrders(), s.orders.nextId)
    ensures |s.salesData.rows| == 0 ==> r.salesData.rows == Numbered(SeedSalesData(), s.salesData.nextId)
    ensures |s.users.rows| != 0 ==> r.users == s.users
    ensures |s.products.rows| != 0 ==> r.products == s.products
    ensures |s.orders.rows| != 0 ==> r.orders == s.orders
    ensures |s.salesData.rows| != 0 ==> r.salesData == s.salesData
    ensures |r.users.rows| != 0 && |r.products.rows| != 0 && |r.orders.rows| != 0 && |r.salesData.rows| != 0
    ensures ValidStore(s) ==> ValidStore(r)
  {
    SeedAll(s, SeedUsers(encode, defaultStatus), SeedProducts(), SeedOrders(), SeedSalesData())
  }

  /** Each table seeded from its own list when empty. */
  function SeedAll(s: Store, users: seq<User>, products: seq<Product>, orders: seq<Order>, salesData: seq<SalesData>): (r: Store)
    ensures r.users == SeedIfEmpty(s.users, users) && r.products == SeedIfEmpty(s.products, products)
    ensures r.orders == SeedIfEmpty(s.orders, orders) && r.salesData == SeedIfEmpty(s.salesData, salesData)
    ensures ValidStore(s) ==> ValidStore(r)
  {
    Store(SeedIfEmpty(s.users, users), SeedIfEmpty(s.products, products),
          SeedIfEmpty(s.orders, orders), SeedIfEmpty(s.salesData, salesData))
  }

  /** A second start-up adds nothing: every table is non-empty after the
      first. */
  lemma RunIdempotent(s: Store, encode: string -> string, defaultStatus: UserStatus)
    ensures Run(Run(s, encode, defaultStatus), encode, defaultStatus) == Run(s, encode, defaultStatus)
  {
    var r := Run(s, encode, defaultStatus);
    var r2 := Run(r, encode, defaultStatus);
    assert r2.users == r.users && r2.products == r.products && r2.orders == r.orders && r2.salesData == r.salesData;
  }

  /** The store after the first start-up on an empty database. */
  function Seeded(encode: string -> string, defaultStatus: UserStatus): (s: Store)
    ensures ValidStore(s)
    ensures s.users.rows == Numbered(SeedUsers(encode, defaultStatus), 1)
    ensures s.products.rows == Numbered(SeedProducts(), 1)
    ensures s.orders.rows == Numbered(SeedOrders(), 1)
    ensures s.salesData.rows == Numbered(SeedSalesData(), 1)
  {
    Run(EmptyStore(), encode, defaultStatus)
  }
}

=== FILE: entities.dfy ===
/** The records the services work on. Money is an exact number of cents
    (every amount in the system has scale 2), a date-time is packed into one
    totally ordered integer yyyyMMddHHmm and a date into yyyyMMdd. */
module Entities {
  import opened Wrappers
  import opened Tables

  type Cents = int
  type Timestamp = int
  type Date = int

  /** `LocalDateTime.of(year, month, day, hour, minute)`. */
  function DateTime(year: nat, month: nat, day: nat, hour: nat, minute: nat): Timestamp
  {
    (((year * 100 + month) * 100 + day) * 100 + hour) * 100 + minute
  }

  /** `LocalDate.of(year, month, day)`. */
  function LocalDate(year: nat, month: nat, day: nat): Date
  {
    (year * 100 + month) * 100 + day
  }

  ghost predicate ValidDateTime(year: nat, month: nat, day: nat, hour: nat, minute: nat)
  {
    1 <= month <= 12 && 1 <= day <= 31 && hour < 24 && minute < 60
  }

  /** `(year, month, day, hour, minute)` comes strictly before the primed
      one in calendar order: the first field that differs decides. */
  predicate Before(y: nat, mo: nat, d: nat, h: nat, mi: nat, y': nat, mo': nat, d': nat, h': nat, mi': nat)
  {
    || y < y'
    || (y == y' && mo < mo')
    || (y == y' && mo == mo' && d < d')
    || (y == y' && mo == mo' && d == d' && h < h')
    || (y == y' && mo == mo' && d == d' && h == h' && mi < mi')
  }

  /** Appending a two-digit field keeps the order of what it is appended
      to, and only breaks ties. */
  lemma DigitOrder(hi: int, lo: int, hi': int, lo': int)
    requires 0 <= lo < 100 && 0 <= lo' < 100
    ensures hi * 100 + lo < hi' * 100 + lo' <==> hi < hi' || (hi == hi' && lo < lo')
    ensures hi * 100 + lo == hi' * 100 + lo' <==> hi == hi' && lo == lo'
  {
    if hi < hi' {
      assert hi * 100 + 100 <= hi' * 100;
    } else if hi' < hi {
      assert hi' * 100 + 100 <= hi * 100;
    }
  }

  /** Packing keeps the calendar order in both directions: one stamp is
      smaller than another exactly when its date and time come first, and
      two stamps are equal exactly when every field is. */
  lemma {:induction false} DateTimeOrder(y: nat, mo: nat, d: nat, h: nat, mi: nat, y': nat, mo': nat, d': nat, h': nat, mi': nat)
    requires ValidDateTime(y, mo, d, h, mi) && ValidDateTime(y', mo', d', h', mi')
    ensures DateTime(y, mo, d, h, mi) < DateTime(y', mo', d', h', mi') <==> Before(y, mo, d, h, mi, y', mo', d', h', mi')
    ensures DateTime(y, mo, d, h, mi) == DateTime(y', mo', d', h', mi') <==> (y, mo, d, h, mi) == (y', mo', d', h', mi')
  {
    DigitOrder(y, mo, y', mo');
    DigitOrder(y * 100 + mo, d, y' * 100 + mo', d');
    DigitOrder((y * 100 + mo) * 100 + d, h, (y' * 100 + mo') * 100 + d', h');
    DigitOrder(((y * 100 + mo) * 100 + d) * 100 + h, mi, ((y' * 100 + mo') * 100 + d') * 100 + h', mi');
  }

  /** The same for dates: `LocalDate` packing keeps the calendar order. */
  lemma {:induction false} DateOrder(y: nat, mo: nat, d: nat, y': nat, mo': nat, d': nat)
    requires 1 <= mo <= 12 && 1 <= d <= 31 && 1 <= mo' <= 12 && 1 <= d' <= 31
    ensures LocalDate(y, mo, d) < LocalDate(y', mo', d') <==> Before(y, mo, d, 0, 0, y', mo', d', 0, 0)
    ensures LocalDate(y, mo, d) == LocalDate(y', mo', d') <==> (y, mo, d) == (y', mo', d')
  {
    DigitOrder(y, mo, y', mo');
    DigitOrder(y * 100 + mo, d, y' * 100 + mo', d');
  }

  datatype Role = ADMIN | CUSTOMER | MODERATOR

  datatype UserStatus = ACTIVE | INACTIVE

  datatype OrderStatus = PENDING | PROCESSING | SHIPPED | DELIVERED

  /** `password` is the stored (encoded) password. */
  datatype User = User(name: string, email: string, password: string, role: Role, status: UserStatus)

  datatype Product = Product(
    name: string,
    category: string,
    price: Cents,
    stock: int,
    sales: int,
    description: Option<string>,
    imageUrl: Option<string>)

  /** A line of an order: a weak reference to a product by id, and the
      line's total as recorded (not recomputed here). */
  datatype OrderItem = OrderItem(productId: Id, quantity: int, price: Cents, totalPrice: Cents)

  /** `orderId` is the human order code ("ORD001"); the row id is the store's. */
  datatype Order = Order(
    orderId: string,
    customer: string,
    total: Cents,
    status: OrderStatus,
    orderDate: Timestamp,
    items: seq<OrderItem>)
}

=== FILE: grouping.dfy ===
/** `SELECT key, SUM(amount) ... GROUP BY key` (and COUNT, as a sum of ones):
    one group per distinct key present, built in first-appearance order. */
module Grouping {
  import opened Seqs

  datatype Group<K> = Group(key: K, value: int)

  function Keys<K>(gs: seq<Group<K>>): set<K>
  {
    set g | g in gs :: g.key
  }

  ghost predicate DistinctKeys<K>(gs: seq<Group<K>>)
  {
    forall i, j :: 0 <= i < j < |gs| ==> gs[i].key != gs[j].key
  }

  /** The value of group `k`, or 0 when there is no such group. */
  function ValueOf<K(==)>(gs: seq<Group<K>>, k: K): int
  {
    if gs == [] then 0
    else if gs[0].key == k then gs[0].value
    else ValueOf(gs[1..], k)
  }

  /** The sum of all group values. */
  function Total<K>(gs: seq<Group<K>>): int
  {
    if gs == [] then 0 else gs[0].value + Total(gs[1..])
  }

  /** The rows whose key is `k`. */
  function KeyIs<T, K(==)>(key: T -> K, k: K): T -> bool
  {
    x => key(x) == k
  }

  /** Adds `v` to group `k`, opening the group at the end if it is new. */
  function Add<K(==)>(gs: seq<Group<K>>, k: K, v: int): seq<Group<K>>
  {
    if gs == [] then [Group(k, v)]
    else if gs[0].key == k then [Group(k, gs[0].value + v)] + gs[1..]
    else [gs[0]] + Add(gs[1..], k, v)
  }

  lemma {:induction false} AddKeys<K>(gs: seq<Group<K>>, k: K, v: int)
    ensures Keys(Add(gs, k, v)) == Keys(gs) + {k}
  {
    if gs != [] {
      assert gs == [gs[0]] + gs[1..];
      assert Keys(gs) == {gs[0].key} + Keys(gs[1..]);
      if gs[0].key != k {
        AddKeys(gs[1..], k, v);
        assert Keys([gs[0]] + Add(gs[1..], k, v)) == {gs[0].key} + Keys(Add(gs[1..], k, v));
      } else {
        assert Keys([Group(k, gs[0].value + v)] + gs[1..]) == {k} + Keys(gs[1..]);
      }
    }
  }

  lemma KeysOfTail<K>(gs: seq<Group<K>>)
    requires DistinctKeys(gs) && gs != []
    ensures gs[0].key !in Keys(gs[1..])
    ensures DistinctKeys(gs[1..])
  {
  }

  lemma {:induction false} AddDistinct<K>(gs: seq<Group<K>>, k: K, v: int)
    requires DistinctKeys(gs)
    ensures DistinctKeys(Add(gs, k, v))
  {
    if gs != [] {
      KeysOfTail(gs);
      if gs[0].key != k {
        AddDistinct(gs[1..], k, v);
        AddKeys(gs[1..], k, v);
        var rest := Add(gs[1..], k, v);
        forall j | 0 <= j < |rest| ensures rest[j].key != gs[0].key {
          assert rest[j].key in Keys(rest);
        }
      }
    }
  }

  lemma {:induction false} NotAKeyHasNoValue<K>(gs: seq<Group<K>>, k: K)
    requires k !in Keys(gs)
    ensures ValueOf(gs, k) == 0
  {
    if gs != [] {
      assert gs[0] in gs;
      assert Keys(gs[1..]) <= Keys(gs);
      NotAKeyHasNoValue(gs[1..], k);
    }
  }

  lemma {:induction false} AddValue<K>(gs: seq<Group<K>>, k: K, v: int, k': K)
    requires DistinctKeys(gs)
    ensures ValueOf(Add(gs, k, v), k') == ValueOf(gs, k') + (if k' == k then v else 0)
  {
    if gs != [] {
      KeysOfTail(gs);
      if gs[0].key == k {
        if k' != k {
          assert ValueOf(Add(gs, k, v), k') == ValueOf(gs[1..], k');
        }
      } else if gs[0].key != k' {
        AddValue(gs[1..], k, v, k');
      } else {
        assert Add(gs, k, v)[0] == gs[0];
      }
    }
  }

  lemma {:induction false} AddTotal<K>(gs: seq<Group<K>>, k: K, v: int)
    ensures Total(Add(gs, k, v)) == Total(gs) + v
  {
    if gs != [] && gs[0].key != k {
      AddTotal(gs[1..], k, v);
    }
  }

  /** Appending a row changes only the sum of its own key. */
  lemma GroupStep<T(!new), K>(s: seq<T>, key: T -> K, amount: T -> int, k: K)
    requires s != []
    ensures SumOf(Filter(s, KeyIs(key, k)), amount)
            == SumOf(Filter(Init(s), KeyIs(key, k)), amount) + (if key(Last(s)) == k then amount(Last(s)) else 0)
  {
    var x := Last(s);
    InitLast(s);
    assert Filter(s, KeyIs(key, k)) == Filter(Init(s), KeyIs(key, k)) + (if key(x) == k then [x] else []);
    SumOfAppend(Filter(Init(s), KeyIs(key, k)), if key(x) == k then [x] else [], amount);
    assert Init([x]) == [];
  }

  lemma KeySetStep<T, K>(s: seq<T>, key: T -> K)
    requires s != []
    ensures (set y | y in s :: key(y)) == (set y | y in Init(s) :: key(y)) + {key(Last(s))}
  {
    InitLast(s);
  }

  /** One group per distinct key of `s`; each holds the sum of `amount` over
      exactly the rows with that key. */
  function GroupSum<T(!new), K(==,!new)>(s: seq<T>, key: T -> K, amount: T -> int): (r: seq<Group<K>>)
    ensures DistinctKeys(r)
    ensures Keys(r) == set x | x in s :: key(x)
    ensures forall k :: ValueOf(r, k) == SumOf(Filter(s, KeyIs(key, k)), amount)
    ensures Total(r) == SumOf(s, amount)
  {
    if s == [] then []
    else
      var prev := GroupSum(Init(s), key, amount);
      var x := Last(s);
      InitLast(s);
      KeySetStep(s, key);
      AddKeys(prev, key(x), amount(x));
      AddDistinct(prev, key(x), amount(x));
      AddTotal(prev, key(x), amount(x));
      assert forall k :: ValueOf(Add(prev, key(x), amount(x)), k) == SumOf(Filter(s, KeyIs(key, k)), amount) by {
        forall k ensures ValueOf(Add(prev, key(x), amount(x)), k) == SumOf(Filter(s, KeyIs(key, k)), amount) {
          AddValue(prev, key(x), amount(x), k);
          GroupStep(s, key, amount, k);
        }
      }
      Add(prev, key(x), amount(x))
  }

  /** With distinct keys, a group's value is what `ValueOf` reports for its key. */
  lemma {:induction false} GroupValue<K>(gs: seq<Group<K>>, g: Group<K>)
    requires DistinctKeys(gs) && g in gs
    ensures ValueOf(gs, g.key) == g.value
  {
    if gs[0] != g {
      KeysOfTail(gs);
      assert g in gs[1..];
      GroupValue(gs[1..], g);
    }
  }

  /** With distinct keys there are as many keys as groups. */
  lemma {:induction false} DistinctKeysCount<K>(gs: seq<Group<K>>)
    requires DistinctKeys(gs)
    ensures |Keys(gs)| == |gs|
  {
    if gs != [] {
      KeysOfTail(gs);
      DistinctKeysCount(gs[1..]);
      assert gs == [gs[0]] + gs[1..];
      assert Keys(gs) == {gs[0].key} + Keys(gs[1..]);
    }
  }

  /** Distinct keys that are all one key make exactly one group, holding
      the total. */
  lemma SingleKey<K>(gs: seq<Group<K>>, k: K)
    requires DistinctKeys(gs) && Keys(gs) == {k}
    ensures gs == [Group(k, Total(gs))]
  {
    DistinctKeysCount(gs);
    assert gs[0] in gs;
    assert gs[0].key in Keys(gs);
    assert Total(gs[1..]) == 0;
  }
}

=== FILE: http.dfy ===
/** The HTTP responses the controllers build: a status and an optional body. */
module Http {
  import opened Wrappers

  datatype HttpStatus = OK | CREATED | NO_CONTENT | BAD_REQUEST | NOT_FOUND | INTERNAL_SERVER_ERROR

  datatype Response<+T> = Response(status: HttpStatus, body: Option<T>)

  function WithBody<T>(status: HttpStatus, body: T): Response<T>
  {
    Response(status, Some(body))
  }

  function NoBody<T>(status: HttpStatus): Response<T>
  {
    Response(status, None)
  }
}

=== FILE: order_controller.dfy ===
/** OrderController: the request-level decisions in front of OrderService.
    Every handler reads the store. Those that write return the store after
    the request together with the response; the reading ones return the
    response, or the rows or figures the response body carries. Paging and
    sorting by a field are not part of this model; the listing returns the
    rows the page is cut from. */
module OrderController {
  import opened Wrappers
  import opened Tables
  import opened Seqs
  import opened Text
  import opened Sorting
  import opened Grouping
  import opened Entities
  import opened Persistence
  import opened Http
  import OrderRepository
  import OrderService

  /** The lower-case letter `l` is matched, ignoring case, by itself and by
      its upper-case form only. */
  lemma LowerCharIs(c: char, l: char)
    requires 'a' <= l <= 'z'
    ensures LowerChar(c) == l <==> c == l || c == (l as int - 32) as char
  {
  }

  lemma DescSpelling(sortDir: string)
    ensures EqualsIgnoreCase(sortDir, "desc") <==>
              |sortDir| == 4 && sortDir[0] in "dD" && sortDir[1] in "eE" && sortDir[2] in "sS" && sortDir[3] in "cC"
  {
    assert Lower("desc") == "desc";
    if |sortDir| == 4 {
      LowerCharIs(sortDir[0], 'd');
      LowerCharIs(sortDir[1], 'e');
      LowerCharIs(sortDir[2], 's');
      LowerCharIs(sortDir[3], 'c');
      if sortDir[0] in "dD" && sortDir[1] in "eE" && sortDir[2] in "sS" && sortDir[3] in "cC" {
        assert Lower(sortDir) == "desc";
      }
    }
  }

  /** The `sortDir` request parameter, whose default is "desc": Spring uses
      the default both when the parameter is missing and when it is empty,
      so the direction is descending for those and for the sixteen spellings
      of "desc" in any mix of cases, ascending for anything else. Sorting itself is not part
      of this model (the page's `Sort.by(sortBy)` names a field at run
      time), so `ListOrders` does not take the direction. */
  function ParseSortDir(sortDir: Option<string>): (d: Direction)
    ensures d == Desc <==>
              || sortDir.None?
              || sortDir == Some("")
              || (var p := sortDir.value;
                  |p| == 4 && p[0] in "dD" && p[1] in "eE" && p[2] in "sS" && p[3] in "cC")
  {
    var p := if sortDir.None? || sortDir.value == "" then "desc" else sortDir.value;
    DescSpelling(p);
    if EqualsIgnoreCase(p, "desc") then Desc else Asc
  }

  /** The rows `GET /api/orders` pages through: every order when `search` is
      absent or blank, otherwise the matches of the trimmed term. */
  function ListOrders(s: Store, search: Option<string>): (r: seq<Row<Order>>)
    ensures search.None? || IsBlank(search.value) ==> r == s.orders.rows
    ensures search.Some? && !IsBlank(search.value) ==> forall o :: o in r <==>
              o in s.orders.rows
              && (Occurs(Lower(Trim(search.value)), Lower(o.val.orderId))
                  || Occurs(Lower(Trim(search.value)), Lower(o.val.customer)))
  {
    if search.Some? && !IsBlank(search.value) then OrderService.SearchOrders(s, search)
    else s.orders.rows
  }

  /** The controller's blank check repeats the service's: going through
      the service on every request would list the same rows. */
  lemma ListOrdersAgreesWithService(s: Store, search: Option<string>)
    ensures ListOrders(s, search) == OrderService.SearchOrders(s, search)
  {
  }

  /** `GET /api/orders/{id}`. */
  function GetOrderById(s: Store, id: Id): (r: Response<Row<Order>>)
    ensures r.status == NOT_FOUND <==> !ExistsById(s.orders, id)
    ensures r.status != NOT_FOUND ==> r.status == OK && r.body.Some? && r.body.value in s.orders.rows && r.body.value.id == id
    ensures r.status == NOT_FOUND ==> r.body.None?
  {
    match FindById(s.orders.rows, id)
    case None => NoBody(NOT_FOUND)
    case Some(order) => WithBody(OK, Row(id, order))
  }

  /** `GET /api/orders/order-id/{orderId}`. A shared code makes the
      repository throw, which escapes the handler as a server error. */
  function GetOrderByOrderId(s: Store, code: string): (r: Response<Row<Order>>)
    ensures r.status == NOT_FOUND <==> forall o :: o in s.orders.rows ==> o.val.orderId != code
    ensures r.status == INTERNAL_SERVER_ERROR <==> OrderRepository.SharedCode(s.orders.rows, code)
    ensures r.status == OK <==> r.status != NOT_FOUND && r.status != INTERNAL_SERVER_ERROR
    ensures r.status == OK ==>
              && r.body.Some? && r.body.value in s.orders.rows && r.body.value.val.orderId == code
              && forall o :: o in s.orders.rows && o.val.orderId == code ==> o == r.body.value
  {
    match OrderRepository.FindByOrderId(s.orders.rows, code)
    case Err(_) => NoBody(INTERNAL_SERVER_ERROR)
    case Ok(None) => NoBody(NOT_FOUND)
    case Ok(Some(row)) => WithBody(OK, row)
  }

  /** `POST /api/orders`. A missing product escapes the handler as a server
      error; the transaction rolls the store back, except for the identity
      value the order's insert used up. */
  function CreateOrder(s: Store, order: Order): (r: (Store, Response<Row<Order>>))
    ensures r.1.status == CREATED <==> OrderService.AllProductsExist(s, order.items)
    ensures r.1.status != CREATED ==> r.1.status == INTERNAL_SERVER_ERROR && r.0 == OrderService.RolledBack(s)
    ensures r.1.status == CREATED ==>
              && r.1.body.Some?
              && r.1.body.value.val == order.(total := SumOf(order.items, OrderService.ItemTotalOf))
              && r.1.body.value.id == s.orders.nextId
              && r.0.orders.rows == s.orders.rows + [r.1.body.value]
  {
    match OrderService.CreateOrder(s, order)
    case Err(e) => (OrderService.RolledBack(s), Response(INTERNAL_SERVER_ERROR, None))
    case Ok((s', saved)) => (s', WithBody(CREATED, saved))
  }

  /** A failed creation still uses up an order id: the next order created
      is saved under the id after the one the failed order drew. */
  lemma FailedCreateConsumesId(s: Store, bad: Order, good: Order)
    requires !OrderService.AllProductsExist(s, bad.items)
    requires OrderService.AllProductsExist(s, good.items)
    ensures var (s1, r1) := CreateOrder(s, bad);
            var (s2, r2) := CreateOrder(s1, good);
            && r1.status == INTERNAL_SERVER_ERROR
            && s1.orders.rows == s.orders.rows
            && r2.status == CREATED
            && r2.body.value.id == s.orders.nextId + 1
  {
  }

  /** `PUT /api/orders/{id}`: a missing id is not-found and changes nothing. */
  function UpdateOrder(s: Store, id: Id, details: Order): (r: (Store, Response<Row<Order>>))
    ensures r.1.status == NOT_FOUND <==> !ExistsById(s.orders, id)
    ensures r.1.status == NOT_FOUND ==> r.0 == s && r.1.body.None?
    ensures r.1.status != NOT_FOUND ==>
              && r.1.status == OK && r.1.body.Some?
              && r.0 == s.(orders := r.0.orders) && SameExcept(s.orders, r.0.orders, id)
              && r.1.body.value.id == id
              && r.1.body.value.val.customer == details.customer
              && r.1.body.value.val.total == details.total
              && r.1.body.value.val.status == details.status
  {
    match OrderService.UpdateOrder(s, id, details)
    case Err(_) => (s, NoBody(NOT_FOUND))
    case Ok((s', saved)) => (s', WithBody(OK, saved))
  }

  /** `PATCH /api/orders/{id}/status`: any status is accepted; a missing id
      is not-found and changes nothing. */
  function UpdateOrderStatus(s: Store, id: Id, status: OrderStatus): (r: (Store, Response<Row<Order>>))
    ensures r.1.status == NOT_FOUND <==> !ExistsById(s.orders, id)
    ensures r.1.status == NOT_FOUND ==> r.0 == s && r.1.body.None?
    ensures r.1.status != NOT_FOUND ==>
              && r.1.status == OK && r.1.body.Some?
              && r.0 == s.(orders := r.0.orders) && SameExcept(s.orders, r.0.orders, id)
              && r.1.body.value.id == id && r.1.body.value.val.status == status
  {
    match OrderService.UpdateOrderStatus(s, id, status)
    case Err(_) => (s, NoBody(NOT_FOUND))
    case Ok((s', saved)) => (s', WithBody(OK, saved))
  }

  /** `DELETE /api/orders/{id}`: no-content after removing the order, or
      not-found with nothing changed. */
  function DeleteOrder(s: Store, id: Id): (r: (Store, Response<()>))
    ensures r.1.status == NOT_FOUND <==> !ExistsById(s.orders, id)
    ensures r.1.status == NOT_FOUND ==> r.0 == s
    ensures r.1.status != NOT_FOUND ==>
              && r.1.status == NO_CONTENT
              && r.0 == s.(orders := r.0.orders)
              && forall o :: o in r.0.orders.rows <==> o in s.orders.rows && o.id != id
  {
    match OrderService.DeleteOrder(s, id)
    case Err(_) => (s, NoBody(NOT_FOUND))
    case Ok(s') => (s', NoBody(NO_CONTENT))
  }

  datatype Revenue = Revenue(totalRevenue: Cents, period: string)

  /** `GET /api/orders/revenue`: the inclusive range and period "custom"
      when both dates are given, all-time revenue otherwise. */
  function RevenueStats(s: Store, startDate: Option<Timestamp>, endDate: Option<Timestamp>): (r: Revenue)
    ensures r.period == "custom" <==> startDate.Some? && endDate.Some?
    ensures r.period != "custom" ==> r.period == "all-time" && r.totalRevenue == SumOf(s.orders.rows, OrderRepository.TotalOf)
    ensures r.period == "custom" ==>
              r.totalRevenue == SumOf(OrderRepository.FindOrdersByDateRange(s.orders.rows, startDate.value, endDate.value), OrderRepository.TotalOf)
  {
    if startDate.Some? && endDate.Some? then
      Revenue(OrderService.GetTotalRevenueByDateRange(s, startDate.value, endDate.value), "custom")
    else
      Revenue(OrderService.GetTotalRevenue(s), "all-time")
  }

  datatype Stats = Stats(
    totalOrders: nat,
    pendingOrders: nat,
    processingOrders: nat,
    shippedOrders: nat,
    deliveredOrders: nat,
    totalRevenue: Cents,
    statusCounts: seq<Group<OrderStatus>>)

  /** `GET /api/orders/stats`. The four per-status counts add up to the
      total, and the grouped counts agree with them. */
  function OrderStats(s: Store): (r: Stats)
    ensures r.totalOrders == |s.orders.rows|
    ensures r.pendingOrders == |OrderRepository.FindByStatus(s.orders.rows, PENDING)|
    ensures r.processingOrders == |OrderRepository.FindByStatus(s.orders.rows, PROCESSING)|
    ensures r.shippedOrders == |OrderRepository.FindByStatus(s.orders.rows, SHIPPED)|
    ensures r.deliveredOrders == |OrderRepository.FindByStatus(s.orders.rows, DELIVERED)|
    ensures r.pendingOrders + r.processingOrders + r.shippedOrders + r.deliveredOrders == r.totalOrders
    ensures r.totalRevenue == SumOf(s.orders.rows, OrderRepository.TotalOf)
    ensures DistinctKeys(r.statusCounts) && Total(r.statusCounts) == r.totalOrders
    ensures forall g :: g in r.statusCounts ==> g.value == |OrderRepository.FindByStatus(s.orders.rows, g.key)|
  {
    var rows := s.orders.rows;
    OrderRepository.StatusCountsPartition(rows);
    Stats(|rows|,
          OrderRepository.CountByStatus(rows, PENDING),
          OrderRepository.CountByStatus(rows, PROCESSING),
          OrderRepository.CountByStatus(rows, SHIPPED),
          OrderRepository.CountByStatus(rows, DELIVERED),
          OrderService.GetTotalRevenue(s),
          OrderRepository.CountOrdersByStatus(rows))
  }
}

=== FILE: order_repository.dfy ===
/** Meaning of the OrderRepository queries over the rows of the orders table. */
module OrderRepository {
  import opened Wrappers
  import opened Tables
  import opened Seqs
  import opened Grouping
  import opened Text
  import opened Entities

  function StatusOf(o: Row<Order>): OrderStatus
  {
    o.val.status
  }

  function TotalOf(o: Row<Order>): int
  {
    o.val.total
  }

  function OrderIdIs(code: string): Row<Order> -> bool
  {
    (o: Row<Order>) => o.val.orderId == code
  }

  /** Two different orders carry the code. */
  ghost predicate SharedCode(orders: seq<Row<Order>>, code: string)
  {
    Shared(orders, OrderIdIs(code))
  }

  /** `findByOrderId`, returning `Optional<Order>`: empty when no order has
      the code, the order when exactly one has it, and an error when the
      code is shared. */
  function FindByOrderId(orders: seq<Row<Order>>, code: string): (r: Result<Option<Row<Order>>, QueryError>)
    ensures r.Err? <==> SharedCode(orders, code)
    ensures r == Ok(None) <==> forall o :: o in orders ==> o.val.orderId != code
    ensures r.Ok? && r.value.Some? ==>
              && r.value.value in orders
              && r.value.value.val.orderId == code
              && forall o :: o in orders && o.val.orderId == code ==> o == r.value.value
  {
    FindOne(orders, OrderIdIs(code))
  }

  function SearchMatch(term: string): Row<Order> -> bool
  {
    (o: Row<Order>) => Like(o.val.orderId, term) || Like(o.val.customer, term)
  }

  /** `findBySearchTerm`: orders whose code or customer contains the term,
      ignoring case. */
  function FindBySearchTerm(orders: seq<Row<Order>>, term: string): (r: seq<Row<Order>>)
    ensures forall o :: o in r <==>
              o in orders && (Occurs(Lower(term), Lower(o.val.orderId)) || Occurs(Lower(term), Lower(o.val.customer)))
  {
    forall o ensures SearchMatch(term)(o) <==> (Occurs(Lower(term), Lower(o.val.orderId)) || Occurs(Lower(term), Lower(o.val.customer))) {
      LikeMeaning(o.val.orderId, term);
      LikeMeaning(o.val.customer, term);
    }
    Filter(orders, SearchMatch(term))
  }

  /** `findByStatus`. */
  function FindByStatus(orders: seq<Row<Order>>, status: OrderStatus): (r: seq<Row<Order>>)
    ensures forall o :: o in r <==> o in orders && o.val.status == status
  {
    assert forall o :: KeyIs(StatusOf, status)(o) <==> StatusOf(o) == status;
    Filter(orders, KeyIs(StatusOf, status))
  }

  function InRange(startDate: Timestamp, endDate: Timestamp): Row<Order> -> bool
  {
    (o: Row<Order>) => startDate <= o.val.orderDate <= endDate
  }

  /** `findOrdersByDateRange`: `orderDate BETWEEN start AND end`, both ends
      included. */
  function FindOrdersByDateRange(orders: seq<Row<Order>>, startDate: Timestamp, endDate: Timestamp): (r: seq<Row<Order>>)
    ensures forall o :: o in r <==> o in orders && startDate <= o.val.orderDate <= endDate
    ensures startDate > endDate ==> r == []
  {
    Filter(orders, InRange(startDate, endDate))
  }

  /** `getTotalRevenueByDateRange`: SUM of the totals in the inclusive range,
      NULL when the range holds no order. */
  function GetTotalRevenueByDateRange(orders: seq<Row<Order>>, startDate: Timestamp, endDate: Timestamp): (r: Option<Cents>)
    ensures r.None? <==> forall o :: o in orders ==> !(startDate <= o.val.orderDate <= endDate)
    ensures r.Some? ==> r.value == SumOf(FindOrdersByDateRange(orders, startDate, endDate), TotalOf)
  {
    var inRange := FindOrdersByDateRange(orders, startDate, endDate);
    assert inRange != [] ==> inRange[0] in inRange;
    SqlSum(inRange, TotalOf)
  }

  /** `getTotalRevenue`: SUM of all totals, NULL on an empty table. */
  function GetTotalRevenue(orders: seq<Row<Order>>): (r: Option<Cents>)
    ensures r.None? <==> orders == []
    ensures r.Some? ==> r.value == SumOf(orders, TotalOf)
  {
    SqlSum(orders, TotalOf)
  }

  /** `countByStatus`, counted row by row. */
  function CountByStatus(orders: seq<Row<Order>>, status: OrderStatus): (n: nat)
    ensures n == |FindByStatus(orders, status)|
  {
    Count(orders, KeyIs(StatusOf, status))
  }

  /** `countOrdersByStatus`: one (status, count) group per status present. */
  function CountOrdersByStatus(orders: seq<Row<Order>>): (r: seq<Group<OrderStatus>>)
    ensures DistinctKeys(r)
    ensures Keys(r) == set o | o in orders :: o.val.status
    ensures forall g :: g in r ==> g.value == CountByStatus(orders, g.key)
    ensures Total(r) == |orders|
  {
    var r := GroupSum(orders, StatusOf, One);
    SumOfOneIsLength(orders);
    assert (set o | o in orders :: StatusOf(o)) == set o | o in orders :: o.val.status;
    forall g | g in r ensures g.value == CountByStatus(orders, g.key) {
      SumOfOneIsLength(Filter(orders, KeyIs(StatusOf, g.key)));
      GroupValue(r, g);
    }
    r
  }

  lemma StatusStep(orders: seq<Row<Order>>, st: OrderStatus)
    requires orders != []
    ensures CountByStatus(orders, st) == CountByStatus(Init(orders), st) + (if Last(orders).val.status == st then 1 else 0)
  {
    assert KeyIs(StatusOf, st)(Last(orders)) <==> StatusOf(Last(orders)) == st;
  }

  /** Every order has exactly one of the four statuses. */
  lemma {:induction false} StatusCountsPartition(orders: seq<Row<Order>>)
    ensures CountByStatus(orders, PENDING) + CountByStatus(orders, PROCESSING)
            + CountByStatus(orders, SHIPPED) + CountByStatus(orders, DELIVERED) == |orders|
  {
    if orders != [] {
      StatusCountsPartition(Init(orders));
      StatusStep(orders, PENDING);
      StatusStep(orders, PROCESSING);
      StatusStep(orders, SHIPPED);
      StatusStep(orders, DELIVERED);
    }
  }
}

=== FILE: order_service.dfy ===
/** OrderService as transitions of the store. The service class is
    transactional, so an operation that fails leaves the store as it was:
    the caller keeps its store and gets the error. */
module OrderService {
  import opened Wrappers
  import opened Tables
  import opened Seqs
  import opened Text
  import opened Entities
  import opened Persistence
  import OrderRepository
  import ProductService

  const OrderNotFound := "Order not found"

  ghost predicate OnlyOrdersChange(s: Store, s': Store)
  {
    s'.users == s.users && s'.products == s.products && s'.salesData == s.salesData
  }

  /** `searchOrders`: a missing or blank term lists every order, otherwise
      the trimmed term is searched for. */
  function SearchOrders(s: Store, term: Option<string>): (r: seq<Row<Order>>)
    ensures term.None? ==> r == s.orders.rows
    ensures term.Some? ==> forall o :: o in r <==>
              o in s.orders.rows
              && (Occurs(Lower(Trim(term.value)), Lower(o.val.orderId))
                  || Occurs(Lower(Trim(term.value)), Lower(o.val.customer)))
  {
    if term.None? || IsBlank(term.value) then
      if term.Some? then
        BlankTermOccursEverywhere(term.value);
        s.orders.rows
      else s.orders.rows
    else OrderRepository.FindBySearchTerm(s.orders.rows, Trim(term.value))
  }

  function ItemTotalOf(item: OrderItem): int
  {
    item.totalPrice
  }

  function QuantityOf(item: OrderItem): int
  {
    item.quantity
  }

  function RefersTo(productId: Id): OrderItem -> bool
  {
    (item: OrderItem) => item.productId == productId
  }

  /** The sum of the quantities of the items that reference `productId`. */
  function QuantityFor(items: seq<OrderItem>, productId: Id): int
  {
    SumOf(Filter(items, RefersTo(productId)), QuantityOf)
  }

  lemma QuantityForCons(items: seq<OrderItem>, productId: Id)
    requires items != []
    ensures QuantityFor(items, productId)
            == (if items[0].productId == productId then items[0].quantity else 0) + QuantityFor(items[1..], productId)
  {
    var head := Filter([items[0]], RefersTo(productId));
    assert items == [items[0]] + items[1..];
    FilterAppend([items[0]], items[1..], RefersTo(productId));
    SumOfAppend(head, Filter(items[1..], RefersTo(productId)), QuantityOf);
    assert Init([items[0]]) == [];
    assert RefersTo(productId)(items[0]) <==> items[0].productId == productId;
    if items[0].productId == productId {
      assert head == [items[0]];
      assert SumOf(head, QuantityOf) == QuantityOf(items[0]);
    } else {
      assert head == [];
    }
  }

  /** Every item references a stored product. */
  ghost predicate AllProductsExist(s: Store, items: seq<OrderItem>)
  {
    forall i :: 0 <= i < |items| ==> ExistsById(s.products, items[i].productId)
  }

  /** The products table of `s'` is that of `s` with each product's sales
      raised by the quantities of the items that reference it. */
  ghost predicate SalesRaisedBy(s: Store, s': Store, items: seq<OrderItem>)
  {
    && s'.products.nextId == s.products.nextId
    && |s'.products.rows| == |s.products.rows|
    && forall i :: 0 <= i < |s.products.rows| ==>
         && s'.products.rows[i].id == s.products.rows[i].id
         && s'.products.rows[i].val == s.products.rows[i].val.(
              sales := s.products.rows[i].val.sales + QuantityFor(items, s.products.rows[i].id))
  }

  /** `updateProductSales` for each item in turn; the first missing product
      aborts the whole sequence. */
  function ApplySales(s: Store, items: seq<OrderItem>): (r: Result<Store, Error>)
    ensures r.Err? <==> !AllProductsExist(s, items)
    ensures r.Err? ==> r.error == NotFound(ProductService.ProductNotFound)
    ensures r.Ok? ==> ProductService.OnlyProductsChange(s, r.value)
    ensures r.Ok? && Tables.Valid(s.products) ==> SalesRaisedBy(s, r.value, items)
    ensures r.Ok? && ValidStore(s) ==> ValidStore(r.value)
    decreases |items|
  {
    if items == [] then Ok(s)
    else
      match ProductService.UpdateProductSales(s, items[0].productId, items[0].quantity)
      case Err(e) => Err(e)
      case Ok(s1) =>
        SameExceptKeepsIds(s.products, s1.products, items[0].productId);
        var r := ApplySales(s1, items[1..]);
        ApplySalesStep(s, s1, items, r);
        r
  }

  lemma ApplySalesStep(s: Store, s1: Store, items: seq<OrderItem>, r: Result<Store, Error>)
    requires items != []
    requires ProductService.UpdateProductSales(s, items[0].productId, items[0].quantity) == Ok(s1)
    requires forall k :: ExistsById(s.products, k) <==> ExistsById(s1.products, k)
    requires Tables.Valid(s.products) ==> Tables.Valid(s1.products)
    requires r.Err? <==> !AllProductsExist(s1, items[1..])
    requires r.Ok? && Tables.Valid(s1.products) ==> SalesRaisedBy(s1, r.value, items[1..])
    ensures r.Err? <==> !AllProductsExist(s, items)
    ensures r.Ok? && Tables.Valid(s.products) ==> SalesRaisedBy(s, r.value, items)
  {
    assert ExistsById(s.products, items[0].productId);
    ProductsExistStep(s, s1, items);
    if r.Ok? && Tables.Valid(s.products) {
      SalesRaisedStep(s, s1, r.value, items);
    }
  }

  lemma ProductsExistStep(s: Store, s1: Store, items: seq<OrderItem>)
    requires items != [] && ExistsById(s.products, items[0].productId)
    requires forall k :: ExistsById(s.products, k) <==> ExistsById(s1.products, k)
    ensures AllProductsExist(s, items) <==> AllProductsExist(s1, items[1..])
  {
    if AllProductsExist(s1, items[1..]) {
      forall i | 0 <= i < |items| ensures ExistsById(s.products, items[i].productId) {
        if i > 0 {
          assert items[i] == items[1..][i - 1];
        }
      }
    }
    if AllProductsExist(s, items) {
      forall i | 0 <= i < |items[1..]| ensures ExistsById(s1.products, items[1..][i].productId) {
        assert items[1..][i] == items[i + 1];
      }
    }
  }

  lemma SalesRaisedStep(s: Store, s1: Store, s2: Store, items: seq<OrderItem>)
    requires items != []
    requires SameExcept(s.products, s1.products, items[0].productId)
    requires forall i :: 0 <= i < |s.products.rows| && s.products.rows[i].id == items[0].productId ==>
               s1.products.rows[i].val == s.products.rows[i].val.(sales := s.products.rows[i].val.sales + items[0].quantity)
    requires SalesRaisedBy(s1, s2, items[1..])
    ensures SalesRaisedBy(s, s2, items)
  {
    var rows, rows1, rows2 := s.products.rows, s1.products.rows, s2.products.rows;
    forall i | 0 <= i < |rows|
      ensures rows2[i].id == rows[i].id
      ensures rows2[i].val == rows[i].val.(sales := rows[i].val.sales + QuantityFor(items, rows[i].id))
    {
      assert rows1[i].id == rows[i].id;
      SalesRowStep(rows[i].val, rows1[i].val, rows2[i].val, rows[i].id, items);
    }
  }

  lemma SalesRowStep(before: Product, mid: Product, after: Product, k: Id, items: seq<OrderItem>)
    requires items != []
    requires mid == if k == items[0].productId then before.(sales := before.sales + items[0].quantity) else before
    requires after == mid.(sales := mid.sales + QuantityFor(items[1..], k))
    ensures after == before.(sales := before.sales + QuantityFor(items, k))
  {
    QuantityForCons(items, k);
  }

  /** `createOrder`: the total becomes the sum of the item totals (whatever
      the caller sent), the order is saved under a fresh id, and each
      referenced product's sales rise by the quantities ordered. If any
      item references a missing product, nothing is created or changed. */
  function CreateOrder(s: Store, order: Order): (r: Result<(Store, Row<Order>), Error>)
    ensures r.Err? <==> exists i :: 0 <= i < |order.items| && !ExistsById(s.products, order.items[i].productId)
    ensures r.Err? ==> r.error == NotFound(ProductService.ProductNotFound)
    ensures r.Ok? ==> r.value.1.val == order.(total := SumOf(order.items, ItemTotalOf))
    ensures r.Ok? ==> r.value.0.orders.rows == s.orders.rows + [r.value.1]
    ensures r.Ok? ==> r.value.1.id == s.orders.nextId && r.value.0.orders.nextId == s.orders.nextId + 1
    ensures r.Ok? && Tables.Valid(s.orders) ==> !ExistsById(s.orders, r.value.1.id)
    ensures r.Ok? ==> r.value.0.users == s.users && r.value.0.salesData == s.salesData
    ensures r.Ok? && Tables.Valid(s.products) ==> SalesRaisedBy(s, r.value.0, order.items)
    ensures r.Ok? && ValidStore(s) ==> ValidStore(r.value.0)
  {
    var total := SumOf(order.items, ItemTotalOf);
    var (orders, saved) := Tables.Insert(s.orders, order.(total := total));
    match ApplySales(s.(orders := orders), order.items)
    case Err(e) => Err(e)
    case Ok(s') => Ok((s', saved))
  }

  /** The store a rolled-back `createOrder` leaves behind. The transaction
      undoes the saved order and every sales update, but the order was
      inserted before the products were looked up, and the identity value
      that insert drew is not given back: the next order gets the one after. */
  function RolledBack(s: Store): (r: Store)
    ensures r.orders.rows == s.orders.rows && r.orders.nextId == s.orders.nextId + 1
    ensures r.users == s.users && r.products == s.products && r.salesData == s.salesData
    ensures ValidStore(s) ==> ValidStore(r)
  {
    s.(orders := s.orders.(nextId := s.orders.nextId + 1))
  }

  /** The total a caller puts on the order never reaches the store. */
  lemma CallerTotalIgnored(s: Store, order: Order, total: Cents)
    ensures CreateOrder(s, order) == CreateOrder(s, order.(total := total))
  {
  }

  /** An order without items is always created, with total zero, and no
      product changes. */
  lemma EmptyOrderHasZeroTotal(s: Store, order: Order)
    requires order.items == []
    ensures CreateOrder(s, order).Ok?
    ensures CreateOrder(s, order).value.1.val.total == 0
    ensures CreateOrder(s, order).value.0.products == s.products
  {
  }

  /** `updateOrder`: customer, total and status come from `details`; the
      order code, date and items stay. */
  function UpdateOrder(s: Store, id: Id, details: Order): (r: Result<(Store, Row<Order>), Error>)
    ensures r.Err? <==> !ExistsById(s.orders, id)
    ensures r.Err? ==> r.error == NotFound(OrderNotFound)
    ensures r.Ok? ==> OnlyOrdersChange(s, r.value.0) && SameExcept(s.orders, r.value.0.orders, id)
    ensures r.Ok? ==> r.value.1.id == id
    ensures r.Ok? && Tables.Valid(s.orders) ==>
              forall i :: 0 <= i < |s.orders.rows| && s.orders.rows[i].id == id ==>
                var before, after := s.orders.rows[i].val, r.value.0.orders.rows[i].val;
                && r.value.0.orders.rows[i] == r.value.1
                && after.customer == details.customer && after.total == details.total && after.status == details.status
                && after.orderId == before.orderId && after.orderDate == before.orderDate && after.items == before.items
    ensures r.Ok? && ValidStore(s) ==> ValidStore(r.value.0)
  {
    match FindById(s.orders.rows, id)
    case None => Err(NotFound(OrderNotFound))
    case Some(order) =>
      var updated := order.(customer := details.customer, total := details.total, status := details.status);
      FoundIsStored(s.orders, id, order);
      Ok((s.(orders := Tables.Update(s.orders, id, updated)), Row(id, updated)))
  }

  /** `updateOrderStatus`: any status may follow any other; only the status
      changes. */
  function UpdateOrderStatus(s: Store, id: Id, status: OrderStatus): (r: Result<(Store, Row<Order>), Error>)
    ensures r.Err? <==> !ExistsById(s.orders, id)
    ensures r.Err? ==> r.error == NotFound(OrderNotFound)
    ensures r.Ok? ==> OnlyOrdersChange(s, r.value.0) && SameExcept(s.orders, r.value.0.orders, id)
    ensures r.Ok? ==> r.value.1.id == id && r.value.1.val.status == status
    ensures r.Ok? && Tables.Valid(s.orders) ==>
              forall i :: 0 <= i < |s.orders.rows| && s.orders.rows[i].id == id ==>
                r.value.0.orders.rows[i] == r.value.1
                && r.value.1.val == s.orders.rows[i].val.(status := status)
    ensures r.Ok? && ValidStore(s) ==> ValidStore(r.value.0)
  {
    match FindById(s.orders.rows, id)
    case None => Err(NotFound(OrderNotFound))
    case Some(order) =>
      FoundIsStored(s.orders, id, order);
      Ok((s.(orders := Tables.Update(s.orders, id, order.(status := status))), Row(id, order.(status := status))))
  }

  /** `deleteOrder`: fails on a missing id, otherwise removes exactly that
      order. */
  function DeleteOrder(s: Store, id: Id): (r: Result<Store, Error>)
    ensures r.Err? <==> !ExistsById(s.orders, id)
    ensures r.Err? ==> r.error == NotFound(OrderNotFound)
    ensures r.Ok? ==> OnlyOrdersChange(s, r.value)
    ensures r.Ok? ==> forall o :: o in r.value.orders.rows <==> o in s.orders.rows && o.id != id
    ensures r.Ok? && ValidStore(s) ==> ValidStore(r.value) && |r.value.orders.rows| == |s.orders.rows| - 1
  {
    if !ExistsById(s.orders, id) then Err(NotFound(OrderNotFound))
    else Ok(s.(orders := Tables.Delete(s.orders, id)))
  }

  /** `getTotalRevenue`: the sum of all totals, zero when there is no order. */
  function GetTotalRevenue(s: Store): (r: Cents)
    ensures r == SumOf(s.orders.rows, OrderRepository.TotalOf)
    ensures s.orders.rows == [] ==> r == 0
  {
    OrderRepository.GetTotalRevenue(s.orders.rows).GetOr(0)
  }

  /** `getTotalRevenueByDateRange`: the sum of the totals in the inclusive
      range, zero when the range holds no order. */
  function GetTotalRevenueByDateRange(s: Store, startDate: Timestamp, endDate: Timestamp): (r: Cents)
    ensures r == SumOf(OrderRepository.FindOrdersByDateRange(s.orders.rows, startDate, endDate), OrderRepository.TotalOf)
    ensures (forall o :: o in s.orders.rows ==> !(startDate <= o.val.orderDate <= endDate)) ==> r == 0
  {
    OrderRepository.GetTotalRevenueByDateRange(s.orders.rows, startDate, endDate).GetOr(0)
  }
}

=== FILE: persistence.dfy ===
/** The entity store: one table per entity, and the error the services raise
    when an id is missing. */
module Persistence {
  import opened Tables
  import opened Entities
  import opened SalesDataEntity

  datatype Store = Store(
    users: Table<User>,
    products: Table<Product>,
    orders: Table<Order>,
    salesData: Table<SalesData>)

  ghost predicate ValidStore(s: Store)
  {
    Tables.Valid(s.users) && Tables.Valid(s.products) && Tables.Valid(s.orders) && Tables.Valid(s.salesData)
  }

  function EmptyStore(): (s: Store)
    ensures ValidStore(s)
  {
    Store(Empty(), Empty(), Empty(), Empty())
  }

  /** The RuntimeException a service throws, with its message. */
  datatype Error = NotFound(message: string)
}

=== FILE: product_repository.dfy ===
/** Meaning of the ProductRepository queries over the rows of the products table. */
module ProductRepository {
  import opened Tables
  import opened Seqs
  import opened Grouping
  import opened Sorting
  import opened Text
  import opened Entities

  function SalesOf(p: Row<Product>): int
  {
    p.val.sales
  }

  function CategoryOf(p: Row<Product>): string
  {
    p.val.category
  }

  function SearchMatch(term: string): Row<Product> -> bool
  {
    (p: Row<Product>) => Like(p.val.name, term) || Like(p.val.category, term)
  }

  /** `findBySearchTerm`: products whose name or category contains the term,
      ignoring case. */
  function FindBySearchTerm(products: seq<Row<Product>>, term: string): (r: seq<Row<Product>>)
    ensures forall p :: p in r <==>
              p in products && (Occurs(Lower(term), Lower(p.val.name)) || Occurs(Lower(term), Lower(p.val.category)))
  {
    forall p ensures SearchMatch(term)(p) <==> (Occurs(Lower(term), Lower(p.val.name)) || Occurs(Lower(term), Lower(p.val.category))) {
      LikeMeaning(p.val.name, term);
      LikeMeaning(p.val.category, term);
    }
    Filter(products, SearchMatch(term))
  }

  /** `findByCategory`: exact, case-sensitive match. */
  function FindByCategory(products: seq<Row<Product>>, category: string): (r: seq<Row<Product>>)
    ensures forall p :: p in r <==> p in products && p.val.category == category
  {
    assert forall p :: KeyIs(CategoryOf, category)(p) <==> CategoryOf(p) == category;
    Filter(products, KeyIs(CategoryOf, category))
  }

  function StockBelow(threshold: int): Row<Product> -> bool
  {
    (p: Row<Product>) => p.val.stock < threshold
  }

  /** `findLowStockProducts`: stock strictly below the threshold. */
  function FindLowStockProducts(products: seq<Row<Product>>, threshold: int): (r: seq<Row<Product>>)
    ensures forall p :: p in r <==> p in products && p.val.stock < threshold
  {
    Filter(products, StockBelow(threshold))
  }

  function InStock(p: Row<Product>): bool
  {
    p.val.stock > 0
  }

  /** `countProductsInStock`: products with positive stock. */
  function CountProductsInStock(products: seq<Row<Product>>): (n: nat)
    ensures n + |FindLowStockProducts(products, 1)| == |products|
  {
    assert forall p :: InStock(p) <==> !StockBelow(1)(p);
    CountSplit(products, InStock, StockBelow(1));
    Count(products, InStock)
  }

  /** `countProductsByCategory`: one (category, count) group per category
      present; the counts add up to the number of products. */
  function CountProductsByCategory(products: seq<Row<Product>>): (r: seq<Group<string>>)
    ensures DistinctKeys(r)
    ensures Keys(r) == set p | p in products :: p.val.category
    ensures forall g :: g in r ==> g.value == |FindByCategory(products, g.key)|
    ensures Total(r) == |products|
  {
    var r := GroupSum(products, CategoryOf, One);
    SumOfOneIsLength(products);
    assert (set p | p in products :: CategoryOf(p)) == set p | p in products :: p.val.category;
    forall g | g in r ensures g.value == |FindByCategory(products, g.key)| {
      SumOfOneIsLength(Filter(products, KeyIs(CategoryOf, g.key)));
      GroupValue(r, g);
    }
    r
  }

  /** `findTopSellingProducts(PageRequest.of(0, limit))`: the first page of
      the products ordered by sales, highest first. Nothing left out sold
      more than anything kept. */
  function FindTopSellingProducts(products: seq<Row<Product>>, limit: nat): (r: seq<Row<Product>>)
    requires limit >= 1
    ensures |r| == if limit < |products| then limit else |products|
    ensures forall i, j :: 0 <= i < j < |r| ==> r[i].val.sales >= r[j].val.sales
    ensures multiset(r) <= multiset(products)
    ensures forall p, i :: p in multiset(products) - multiset(r) && 0 <= i < |r| ==> p.val.sales <= r[i].val.sales
  {
    var sorted := Sort(products, SalesOf, Desc);
    var r := Take(sorted, limit);
    PrefixDominates(sorted, |r|, SalesOf, Desc);
    forall p, i | p in multiset(products) - multiset(r) && 0 <= i < |r|
      ensures p.val.sales <= r[i].val.sales
    {
      assert InOrder(Desc, SalesOf(sorted[i]), SalesOf(p));
    }
    forall i, j | 0 <= i < j < |r| ensures r[i].val.sales >= r[j].val.sales {
      assert InOrder(Desc, SalesOf(sorted[i]), SalesOf(sorted[j]));
    }
    r
  }
}

=== FILE: product_service.dfy ===
/** ProductService's write operations as transitions of the store, and its
    read operations with their defaults. A failed operation returns the
    error and the caller keeps the store it had. */
module ProductService {
  import opened Wrappers
  import opened Tables
  import opened Text
  import opened Entities
  import opened Persistence
  import ProductRepository

  const ProductNotFound := "Product not found"

  /** Threshold used when the caller gives none. */
  const DefaultLowStockThreshold := 10

  /** Only the products table may differ between `s` and `s'`. */
  ghost predicate OnlyProductsChange(s: Store, s': Store)
  {
    s'.users == s.users && s'.orders == s.orders && s'.salesData == s.salesData
  }

  /** `searchProducts`: a missing or blank term lists every product,
      otherwise the trimmed term is searched for. */
  function SearchProducts(s: Store, term: Option<string>): (r: seq<Row<Product>>)
    ensures term.None? ==> r == s.products.rows
    ensures term.Some? ==> forall p :: p in r <==>
              p in s.products.rows
              && (Occurs(Lower(Trim(term.value)), Lower(p.val.name))
                  || Occurs(Lower(Trim(term.value)), Lower(p.val.category)))
  {
    if term.None? || IsBlank(term.value) then
      if term.Some? then
        BlankTermOccursEverywhere(term.value);
        s.products.rows
      else s.products.rows
    else ProductRepository.FindBySearchTerm(s.products.rows, Trim(term.value))
  }

  /** `updateProduct`: the product takes every field of `details` except
      `sales`, which keeps its value; its id and every other row stay. */
  function UpdateProduct(s: Store, id: Id, details: Product): (r: Result<Store, Error>)
    ensures r.Err? <==> !ExistsById(s.products, id)
    ensures r.Err? ==> r.error == NotFound(ProductNotFound)
    ensures r.Ok? ==> OnlyProductsChange(s, r.value) && SameExcept(s.products, r.value.products, id)
    ensures r.Ok? && Tables.Valid(s.products) ==>
              forall i :: 0 <= i < |s.products.rows| && s.products.rows[i].id == id ==>
                r.value.products.rows[i].val == details.(sales := s.products.rows[i].val.sales)
    ensures r.Ok? && ValidStore(s) ==> ValidStore(r.value)
  {
    match FindById(s.products.rows, id)
    case None => Err(NotFound(ProductNotFound))
    case Some(product) =>
      var updated := product.(
        name := details.name,
        category := details.category,
        price := details.price,
        stock := details.stock,
        description := details.description,
        imageUrl := details.imageUrl);
      FoundIsStored(s.products, id, product);
      Ok(s.(products := Tables.Update(s.products, id, updated)))
  }

  /** `deleteProduct`: fails on a missing id, otherwise removes exactly
      that product. */
  function DeleteProduct(s: Store, id: Id): (r: Result<Store, Error>)
    ensures r.Err? <==> !ExistsById(s.products, id)
    ensures r.Err? ==> r.error == NotFound(ProductNotFound)
    ensures r.Ok? ==> OnlyProductsChange(s, r.value)
    ensures r.Ok? ==> forall p :: p in r.value.products.rows <==> p in s.products.rows && p.id != id
    ensures r.Ok? && ValidStore(s) ==> ValidStore(r.value) && |r.value.products.rows| == |s.products.rows| - 1
  {
    if !ExistsById(s.products, id) then Err(NotFound(ProductNotFound))
    else Ok(s.(products := Tables.Delete(s.products, id)))
  }

  /** `getLowStockProducts`: a missing threshold means 10. */
  function GetLowStockProducts(s: Store, threshold: Option<int>): (r: seq<Row<Product>>)
    ensures threshold.None? ==> r == ProductRepository.FindLowStockProducts(s.products.rows, 10)
    ensures threshold.Some? ==> forall p :: p in r <==> p in s.products.rows && p.val.stock < threshold.value
  {
    ProductRepository.FindLowStockProducts(s.products.rows, threshold.GetOr(DefaultLowStockThreshold))
  }

  /** `updateProductSales`: adds `additionalSales` to the product's counter
      and changes nothing else. */
  function UpdateProductSales(s: Store, id: Id, additionalSales: int): (r: Result<Store, Error>)
    ensures r.Err? <==> !ExistsById(s.products, id)
    ensures r.Err? ==> r.error == NotFound(ProductNotFound)
    ensures r.Ok? ==> OnlyProductsChange(s, r.value) && SameExcept(s.products, r.value.products, id)
    ensures r.Ok? && Tables.Valid(s.products) ==>
              forall i :: 0 <= i < |s.products.rows| && s.products.rows[i].id == id ==>
                r.value.products.rows[i].val == s.products.rows[i].val.(sales := s.products.rows[i].val.sales + additionalSales)
    ensures r.Ok? && ValidStore(s) ==> ValidStore(r.value)
  {
    match FindById(s.products.rows, id)
    case None => Err(NotFound(ProductNotFound))
    case Some(product) =>
      FoundIsStored(s.products, id, product);
      Ok(s.(products := Tables.Update(s.products, id, product.(sales := product.sales + additionalSales))))
  }
}

=== FILE: sales_data.dfy ===
/** The SalesData entity: a period label, an amount in a NUMERIC(10,2)
    column, a sale date and an optional category. The three required
    columns are NOT NULL; the id is the store's. */
module SalesDataEntity {
  import opened Wrappers
  import opened Entities

  datatype SalesData = SalesData(period: string, sales: Cents, saleDate: Date, category: Option<string>)

  /** Digits the `sales` column holds in all, two of them after the point. */
  const Precision: nat := 10
  const Scale: nat := 2

  function Pow10(n: nat): (r: nat)
    ensures r >= 1
  {
    if n == 0 then 1 else 10 * Pow10(n - 1)
  }

  /** The amount (in units of 10^-Scale) has at most Precision digits. */
  predicate FitsColumn(amount: Cents)
  {
    -(Pow10(Precision) as int) < amount < Pow10(Precision)
  }

  /** `new SalesData(period, sales, saleDate, category)`. */
  function NewWithCategory(period: string, sales: Cents, saleDate: Date, category: Option<string>): (s: SalesData)
    ensures s.period == period && s.sales == sales && s.saleDate == saleDate && s.category == category
  {
    SalesData(period, sales, saleDate, category)
  }

  /** `new SalesData(period, sales, saleDate)`: the four-argument
      constructor with no category. */
  function New(period: string, sales: Cents, saleDate: Date): (s: SalesData)
    ensures s == NewWithCategory(period, sales, saleDate, None)
    ensures s.category.None?
  {
    SalesData(period, sales, saleDate, None)
  }
}

=== FILE: sales_data_repository.dfy ===
/** Meaning of the SalesDataRepository queries over the rows of the
    sales_data table. */
module SalesDataRepository {
  import opened Wrappers
  import opened Tables
  import opened Seqs
  import opened Grouping
  import opened Sorting
  import opened Entities
  import opened SalesDataEntity

  function SaleDateOf(s: Row<SalesData>): int
  {
    s.val.saleDate
  }

  function AmountOf(s: Row<SalesData>): int
  {
    s.val.sales
  }

  function CategoryOf(s: Row<SalesData>): Option<string>
  {
    s.val.category
  }

  function DateIn(startDate: Date, endDate: Date): Row<SalesData> -> bool
  {
    (s: Row<SalesData>) => startDate <= s.val.saleDate <= endDate
  }

  /** `findSalesDataByDateRange`: `saleDate BETWEEN start AND end ORDER BY saleDate`. */
  function FindSalesDataByDateRange(rows: seq<Row<SalesData>>, startDate: Date, endDate: Date): (r: seq<Row<SalesData>>)
    ensures forall s :: s in r <==> s in rows && startDate <= s.val.saleDate <= endDate
    ensures multiset(r) == multiset(Filter(rows, DateIn(startDate, endDate)))
    ensures forall i, j :: 0 <= i < j < |r| ==> r[i].val.saleDate <= r[j].val.saleDate
  {
    var r := Sort(Filter(rows, DateIn(startDate, endDate)), SaleDateOf, Asc);
    assert forall i, j :: 0 <= i < j < |r| ==> InOrder(Asc, SaleDateOf(r[i]), SaleDateOf(r[j]));
    r
  }

  function CategoryEquals(category: string): Row<SalesData> -> bool
  {
    (s: Row<SalesData>) => s.val.category == Some(category)
  }

  /** `findByCategory`: `category = :category ORDER BY saleDate`. A row
      without a category never equals a given one. */
  function FindByCategory(rows: seq<Row<SalesData>>, category: string): (r: seq<Row<SalesData>>)
    ensures forall s :: s in r <==> s in rows && s.val.category.Some? && s.val.category.value == category
    ensures multiset(r) == multiset(Filter(rows, CategoryEquals(category)))
    ensures forall i, j :: 0 <= i < j < |r| ==> r[i].val.saleDate <= r[j].val.saleDate
  {
    var r := Sort(Filter(rows, CategoryEquals(category)), SaleDateOf, Asc);
    assert forall i, j :: 0 <= i < j < |r| ==> InOrder(Asc, SaleDateOf(r[i]), SaleDateOf(r[j]));
    r
  }

  /** `getSalesByCategory`: one (category, SUM(sales)) group per category
      present, rows without a category forming a group of their own. */
  function GetSalesByCategory(rows: seq<Row<SalesData>>): (r: seq<Group<Option<string>>>)
    ensures DistinctKeys(r)
    ensures Keys(r) == set s | s in rows :: s.val.category
    ensures forall g :: g in r ==> g.value == SumOf(Filter(rows, KeyIs(CategoryOf, g.key)), AmountOf)
    ensures Total(r) == SumOf(rows, AmountOf)
  {
    var r := GroupSum(rows, CategoryOf, AmountOf);
    assert (set s | s in rows :: CategoryOf(s)) == set s | s in rows :: s.val.category;
    forall g | g in r ensures g.value == SumOf(Filter(rows, KeyIs(CategoryOf, g.key)), AmountOf) {
      GroupValue(r, g);
    }
    r
  }

  /** `findAllOrderByDateDesc`: every row, newest sale date first. */
  function FindAllOrderByDateDesc(rows: seq<Row<SalesData>>): (r: seq<Row<SalesData>>)
    ensures multiset(r) == multiset(rows)
    ensures forall i, j :: 0 <= i < j < |r| ==> r[i].val.saleDate >= r[j].val.saleDate
  {
    var r := Sort(rows, SaleDateOf, Desc);
    assert forall i, j :: 0 <= i < j < |r| ==> InOrder(Desc, SaleDateOf(r[i]), SaleDateOf(r[j]));
    r
  }
}

=== FILE: sales_data_service.dfy ===
/** SalesDataService: the update and delete transitions; the listings it
    offers are the repository queries unchanged. */
module SalesDataService {
  import opened Wrappers
  import opened Tables
  import opened Persistence
  import opened SalesDataEntity

  const SalesDataNotFound := "Sales data not found"

  ghost predicate OnlySalesDataChange(s: Store, s': Store)
  {
    s'.users == s.users && s'.products == s.products && s'.orders == s.orders
  }

  /** `updateSalesData`: period, sales, date and category are all taken from
      `details`, an absent category included; the id stays. */
  function UpdateSalesData(s: Store, id: Id, details: SalesData): (r: Result<(Store, Row<SalesData>), Error>)
    ensures r.Err? <==> !ExistsById(s.salesData, id)
    ensures r.Err? ==> r.error == NotFound(SalesDataNotFound)
    ensures r.Ok? ==> OnlySalesDataChange(s, r.value.0) && SameExcept(s.salesData, r.value.0.salesData, id)
    ensures r.Ok? ==> r.value.1 == Row(id, details)
    ensures r.Ok? ==> forall i :: 0 <= i < |s.salesData.rows| && s.salesData.rows[i].id == id ==>
              r.value.0.salesData.rows[i] == r.value.1
    ensures r.Ok? && ValidStore(s) ==> ValidStore(r.value.0)
  {
    match FindById(s.salesData.rows, id)
    case None => Err(NotFound(SalesDataNotFound))
    case Some(row) =>
      var updated := row.(period := details.period, sales := details.sales,
                          saleDate := details.saleDate, category := details.category);
      Ok((s.(salesData := Tables.Update(s.salesData, id, updated)), Row(id, updated)))
  }

  /** `deleteSalesData`: fails on a missing id, otherwise removes exactly
      that row. */
  function DeleteSalesData(s: Store, id: Id): (r: Result<Store, Error>)
    ensures r.Err? <==> !ExistsById(s.salesData, id)
    ensures r.Err? ==> r.error == NotFound(SalesDataNotFound)
    ensures r.Ok? ==> OnlySalesDataChange(s, r.value)
    ensures r.Ok? ==> forall x :: x in r.value.salesData.rows <==> x in s.salesData.rows && x.id != id
    ensures r.Ok? && ValidStore(s) ==> ValidStore(r.value) && |r.value.salesData.rows| == |s.salesData.rows| - 1
  {
    if !ExistsById(s.salesData, id) then Err(NotFound(SalesDataNotFound))
    else Ok(s.(salesData := Tables.Delete(s.salesData, id)))
  }
}

=== FILE: seed_facts.dfy ===
/** The seeded sample data run through the queries: exact expected answers
    that follow from the models of the repository and the services. */
module SeedFacts {
  import opened Wrappers
  import opened Tables
  import opened Seqs
  import opened Grouping
  import opened Sorting
  import opened Entities
  import opened SalesDataEntity
  import opened Persistence
  import opened DataInitializer
  import OrderRepository
  import OrderService
  import OrderController
  import ProductRepository
  import ProductService
  import UserRepository
  import SalesDataRepository

  function OrderRows(): seq<Row<Order>>
  {
    var o := SeedOrders();
    [Row(1, o[0]), Row(2, o[1]), Row(3, o[2]), Row(4, o[3]), Row(5, o[4]), Row(6, o[5]), Row(7, o[6]), Row(8, o[7])]
  }

  lemma NumberedOrderRows()
    ensures Numbered(SeedOrders(), 1) == OrderRows()
  {
    var n := Numbered(SeedOrders(), 1);
    assert forall i :: 0 <= i < 8 ==> n[i] == OrderRows()[i];
  }

  lemma SeededOrderRows(encode: string -> string, defaultStatus: UserStatus)
    ensures Seeded(encode, defaultStatus).orders.rows == OrderRows()
  {
    NumberedOrderRows();
  }

  lemma OrderTotals()
    ensures SumOf(OrderRows(), OrderRepository.TotalOf) == 268515
    ensures SumOf(OrderRows()[..3], OrderRepository.TotalOf) == 80990
  {
    var s := OrderRows();
    var o := SeedOrders();
    assert o[0].total == 23540 && o[1].total == 41200 && o[2].total == 16250 && o[3].total == 75020;
    assert o[4].total == 9580 && o[5].total == 31075 && o[6].total == 52890 && o[7].total == 18960;
    SumOfFront(s, OrderRepository.TotalOf);
    SumOfFront(s[1..], OrderRepository.TotalOf);
    SumOfFront(s[2..], OrderRepository.TotalOf);
    SumOfFront(s[3..], OrderRepository.TotalOf);
    SumOfFront(s[4..], OrderRepository.TotalOf);
    SumOfFront(s[5..], OrderRepository.TotalOf);
    SumOfFront(s[6..], OrderRepository.TotalOf);
    SumOfFront(s[7..], OrderRepository.TotalOf);
    assert s[8..] == [];
    var t := s[..3];
    SumOfFront(t, OrderRepository.TotalOf);
    SumOfFront(t[1..], OrderRepository.TotalOf);
    SumOfFront(t[2..], OrderRepository.TotalOf);
    assert t[3..] == [];
  }

  /** All-time revenue of the seeded orders is 2685.15. */
  lemma SeededTotalRevenue(encode: string -> string, defaultStatus: UserStatus)
    ensures OrderService.GetTotalRevenue(Seeded(encode, defaultStatus)) == 268515
  {
    SeededOrderRows(encode, defaultStatus);
    OrderTotals();
  }

  function Ord001Time(): Timestamp { DateTime(2023, 7, 1, 10, 0) }
  function Ord003Time(): Timestamp { DateTime(2023, 7, 3, 9, 15) }

  lemma RangeKeepsFirstThree()
    ensures Filter(OrderRows()[..3], OrderRepository.InRange(Ord001Time(), Ord003Time())) == OrderRows()[..3]
  {
    var o := SeedOrders();
    var p := OrderRepository.InRange(Ord001Time(), Ord003Time());
    assert forall x :: p(x) <==> Ord001Time() <= x.val.orderDate <= Ord003Time();
    assert o[0].orderDate == Ord001Time() && o[2].orderDate == Ord003Time() && Ord001Time() < o[1].orderDate < Ord003Time();
    FilterKeepsAll(OrderRows()[..3], p);
  }

  lemma RangeDropsTheRest()
    ensures Filter(OrderRows()[3..], OrderRepository.InRange(Ord001Time(), Ord003Time())) == []
  {
    var s := OrderRows();
    var o := SeedOrders();
    var p := OrderRepository.InRange(Ord001Time(), Ord003Time());
    assert Ord003Time() < o[3].orderDate < o[4].orderDate < o[5].orderDate < o[6].orderDate < o[7].orderDate;
    var t := s[3..];
    forall i | 0 <= i < |t| ensures !p(t[i]) {
      assert t[i] == s[i + 3];
    }
    FilterDropsAll(t, p);
  }

  /** From ORD001's time to ORD003's time, both included, is exactly the
      first three orders. */
  lemma SeededRange()
    ensures OrderRepository.FindOrdersByDateRange(OrderRows(), Ord001Time(), Ord003Time()) == OrderRows()[..3]
  {
    var s := OrderRows();
    assert s == s[..3] + s[3..];
    FilterAppend(s[..3], s[3..], OrderRepository.InRange(Ord001Time(), Ord003Time()));
    RangeKeepsFirstThree();
    RangeDropsTheRest();
  }

  /** The revenue over that range is 809.90. */
  lemma SeededRangeRevenue(encode: string -> string, defaultStatus: UserStatus)
    ensures OrderService.GetTotalRevenueByDateRange(Seeded(encode, defaultStatus),
              Ord001Time(), Ord003Time()) == 80990
  {
    SeededRange();
    SeededOrderRows(encode, defaultStatus);
    OrderTotals();
  }

  /** The eight orders' contributions to a count, front to back. */
  lemma OrderCountSteps(os: seq<Row<Order>>, p: Row<Order> -> bool)
    requires |os| == 8
    ensures Count(os, p) == Indicator(p)(os[0]) + Indicator(p)(os[1]) + Indicator(p)(os[2]) + Indicator(p)(os[3])
                          + Indicator(p)(os[4]) + Indicator(p)(os[5]) + Indicator(p)(os[6]) + Indicator(p)(os[7])
  {
    CountIsSum(os, p);
    SumOfFront(os, Indicator(p));
    SumOfFront(os[1..], Indicator(p));
    SumOfFront(os[2..], Indicator(p));
    SumOfFront(os[3..], Indicator(p));
    SumOfFront(os[4..], Indicator(p));
    SumOfFront(os[5..], Indicator(p));
    SumOfFront(os[6..], Indicator(p));
    SumOfFront(os[7..], Indicator(p));
    assert os[8..] == [];
  }

  lemma StatusCountFormula(os: seq<Row<Order>>, st: OrderStatus)
    requires |os| == 8
    ensures OrderRepository.CountByStatus(os, st)
        == Ind(os[0].val.status == st) + Ind(os[1].val.status == st) + Ind(os[2].val.status == st)
         + Ind(os[3].val.status == st) + Ind(os[4].val.status == st) + Ind(os[5].val.status == st)
         + Ind(os[6].val.status == st) + Ind(os[7].val.status == st)
  {
    var p := KeyIs(OrderRepository.StatusOf, st);
    assert forall x :: p(x) == (x.val.status == st);
    assert forall x :: Indicator(p)(x) == Ind(x.val.status == st);
    OrderCountSteps(os, p);
  }

  lemma SeedStatuses()
    ensures var o := OrderRows();
      && |o| == 8
      && o[0].val.status == DELIVERED && o[1].val.status == PROCESSING
      && o[2].val.status == SHIPPED && o[3].val.status == PENDING
      && o[4].val.status == DELIVERED && o[5].val.status == PROCESSING
      && o[6].val.status == SHIPPED && o[7].val.status == DELIVERED
  {
  }

  lemma SeededStatusCount(st: OrderStatus)
    ensures OrderRepository.CountByStatus(OrderRows(), st)
            == match st case DELIVERED => 3 case PROCESSING => 2 case SHIPPED => 2 case PENDING => 1
  {
    SeedStatuses();
    StatusCountFormula(OrderRows(), st);
  }

  /** Three delivered, two processing, two shipped and one pending order,
      which the stats endpoint reports together with the revenue. */
  lemma SeededOrderStats(s: Store)
    requires s.orders.rows == OrderRows()
    ensures var stats := OrderController.OrderStats(s);
      && stats.totalOrders == 8
      && stats.deliveredOrders == 3 && stats.processingOrders == 2
      && stats.shippedOrders == 2 && stats.pendingOrders == 1
      && stats.totalRevenue == 268515
  {
    SeededStatusCount(DELIVERED);
    SeededStatusCount(PROCESSING);
    SeededStatusCount(SHIPPED);
    SeededStatusCount(PENDING);
    OrderTotals();
    StatsOfEight(s);
  }

  /** The stats of eight orders with the seeded counts and revenue. */
  lemma StatsOfEight(s: Store)
    requires |s.orders.rows| == 8
    requires OrderRepository.CountByStatus(s.orders.rows, DELIVERED) == 3
    requires OrderRepository.CountByStatus(s.orders.rows, PROCESSING) == 2
    requires OrderRepository.CountByStatus(s.orders.rows, SHIPPED) == 2
    requires OrderRepository.CountByStatus(s.orders.rows, PENDING) == 1
    requires SumOf(s.orders.rows, OrderRepository.TotalOf) == 268515
    ensures var stats := OrderController.OrderStats(s);
      && stats.totalOrders == 8
      && stats.deliveredOrders == 3 && stats.processingOrders == 2
      && stats.shippedOrders == 2 && stats.pendingOrders == 1
      && stats.totalRevenue == 268515
  {
  }

  function ProductRows(): seq<Row<Product>>
  {
    var p := SeedProducts();
    [Row(1, p[0]), Row(2, p[1]), Row(3, p[2]), Row(4, p[3]), Row(5, p[4])]
  }

  lemma NumberedProductRows()
    ensures Numbered(SeedProducts(), 1) == ProductRows()
  {
    var n := Numbered(SeedProducts(), 1);
    assert forall i :: 0 <= i < 5 ==> n[i] == ProductRows()[i];
  }

  lemma SeededProductRows(encode: string -> string, defaultStatus: UserStatus)
    ensures Seeded(encode, defaultStatus).products.rows == ProductRows()
  {
    NumberedProductRows();
  }

  lemma SeedSalesAndStocks()
    ensures var p := SeedProducts();
      && p[0].sales == 1200 && p[1].sales == 800 && p[2].sales == 650 && p[3].sales == 950 && p[4].sales == 720
      && p[0].stock == 143 && p[1].stock == 89 && p[2].stock == 56 && p[3].stock == 210 && p[4].stock == 78
  {
  }

  /** Sorting the five products by sales, descending: the insertion sort
      traced step by step from the back (sales 1200, 800, 650, 950, 720). */
  lemma SortTwo(d: Row<Product>, e: Row<Product>)
    requires d.val.sales == 950 && e.val.sales == 720
    ensures Sort([d] + [e], ProductRepository.SalesOf, Desc) == [d] + [e]
  {
    SortSingleton(e, ProductRepository.SalesOf, Desc);
    SortStepBefore(d, [e], e, [], ProductRepository.SalesOf, Desc);
    assert [e] + [] == [e];
  }

  lemma SortThree(c: Row<Product>, d: Row<Product>, e: Row<Product>, s2: seq<Row<Product>>)
    requires c.val.sales == 650 && d.val.sales == 950 && e.val.sales == 720
    requires s2 == [d] + [e]
    ensures Sort([c] + s2, ProductRepository.SalesOf, Desc) == [d] + ([e] + [c])
  {
    var k := ProductRepository.SalesOf;
    SortTwo(d, e);
    SortStepAfter(c, s2, d, [e], k, Desc);
    assert [e] == [e] + [];
    InsertAfter(c, e, [], k, Desc);
  }

  lemma SortFour(b: Row<Product>, c: Row<Product>, d: Row<Product>, e: Row<Product>, s3: seq<Row<Product>>)
    requires b.val.sales == 800 && c.val.sales == 650 && d.val.sales == 950 && e.val.sales == 720
    requires s3 == [c] + ([d] + [e])
    ensures Sort([b] + s3, ProductRepository.SalesOf, Desc) == [d] + ([b] + ([e] + [c]))
  {
    var k := ProductRepository.SalesOf;
    SortThree(c, d, e, [d] + [e]);
    SortStepAfter(b, s3, d, [e] + [c], k, Desc);
    InsertBefore(b, e, [c], k, Desc);
  }

  lemma SortFive(a: Row<Product>, b: Row<Product>, c: Row<Product>, d: Row<Product>, e: Row<Product>, s4: seq<Row<Product>>)
    requires a.val.sales == 1200 && b.val.sales == 800 && c.val.sales == 650 && d.val.sales == 950 && e.val.sales == 720
    requires s4 == [b] + ([c] + ([d] + [e]))
    ensures Sort([a] + s4, ProductRepository.SalesOf, Desc) == [a] + ([d] + ([b] + ([e] + [c])))
  {
    SortFour(b, c, d, e, [c] + ([d] + [e]));
    SortStepBefore(a, s4, d, [b] + ([e] + [c]), ProductRepository.SalesOf, Desc);
  }

  lemma TopThreeOfFive(a: Row<Product>, b: Row<Product>, c: Row<Product>, d: Row<Product>, e: Row<Product>, ps: seq<Row<Product>>)
    requires a.val.sales == 1200 && b.val.sales == 800 && c.val.sales == 650 && d.val.sales == 950 && e.val.sales == 720
    requires ps == [a] + ([b] + ([c] + ([d] + [e])))
    ensures ProductRepository.FindTopSellingProducts(ps, 3) == [a, d, b]
  {
    SortFive(a, b, c, d, e, [b] + ([c] + ([d] + [e])));
    var sorted := [a] + ([d] + ([b] + ([e] + [c])));
    assert sorted[..3] == [a, d, b];
  }

  /** The best three sellers are the earbuds (1200), the yoga mat (950) and
      the wallet (800), in that order. */
  lemma SeededTopThree()
    ensures var ps := ProductRows();
      ProductRepository.FindTopSellingProducts(ps, 3) == [ps[0], ps[3], ps[1]]
  {
    var ps := ProductRows();
    SeedSalesAndStocks();
    assert ps == [ps[0]] + ([ps[1]] + ([ps[2]] + ([ps[3]] + [ps[4]])));
    TopThreeOfFive(ps[0], ps[1], ps[2], ps[3], ps[4], ps);
  }

  lemma ProductStocks()
    ensures var ps := ProductRows();
      && |ps| == 5
      && ps[0].val.stock == 143 && ps[1].val.stock == 89 && ps[2].val.stock == 56
      && ps[3].val.stock == 210 && ps[4].val.stock == 78
  {
    SeedSalesAndStocks();
  }

  lemma NoneBelow(ps: seq<Row<Product>>, threshold: int)
    requires |ps| == 5 && threshold <= 56
    requires ps[0].val.stock == 143 && ps[1].val.stock == 89 && ps[2].val.stock == 56
    requires ps[3].val.stock == 210 && ps[4].val.stock == 78
    ensures ProductRepository.FindLowStockProducts(ps, threshold) == []
  {
    var p := ProductRepository.StockBelow(threshold);
    forall i | 0 <= i < |ps| ensures !p(ps[i]) {
      assert ps[i].val.stock >= 56;
    }
    FilterDropsAll(ps, p);
  }

  /** Every seeded stock is at least 56, so nothing is below the default
      threshold of 10. */
  lemma SeededNoLowStock(s: Store)
    requires s.products.rows == ProductRows()
    ensures ProductService.GetLowStockProducts(s, None) == []
  {
    ProductStocks();
    NoneBelow(s.products.rows, 10);
  }

  /** All five seeded products are in stock. */
  lemma SeededInStockCount(s: Store)
    requires s.products.rows == ProductRows()
    ensures ProductRepository.CountProductsInStock(s.products.rows) == 5
  {
    ProductStocks();
    NoneBelow(s.products.rows, 1);
  }

  function UserRows(encode: string -> string, defaultStatus: UserStatus): seq<Row<User>>
  {
    var u := SeedUsers(encode, defaultStatus);
    [Row(1, u[0]), Row(2, u[1]), Row(3, u[2]), Row(4, u[3]), Row(5, u[4]), Row(6, u[5])]
  }

  lemma NumberedUserRows(encode: string -> string, defaultStatus: UserStatus)
    ensures Numbered(SeedUsers(encode, defaultStatus), 1) == UserRows(encode, defaultStatus)
  {
    var n := Numbered(SeedUsers(encode, defaultStatus), 1);
    assert forall i :: 0 <= i < 6 ==> n[i] == UserRows(encode, defaultStatus)[i];
  }

  lemma SeededUserRows(encode: string -> string, defaultStatus: UserStatus)
    ensures Seeded(encode, defaultStatus).users.rows == UserRows(encode, defaultStatus)
  {
    NumberedUserRows(encode, defaultStatus);
  }

  /** The six users' contributions to a count, front to back. */
  lemma UserCountSteps(us: seq<Row<User>>, p: Row<User> -> bool)
    requires |us| == 6
    ensures Count(us, p) == Indicator(p)(us[0]) + Indicator(p)(us[1]) + Indicator(p)(us[2])
                          + Indicator(p)(us[3]) + Indicator(p)(us[4]) + Indicator(p)(us[5])
  {
    CountIsSum(us, p);
    SumOfFront(us, Indicator(p));
    SumOfFront(us[1..], Indicator(p));
    SumOfFront(us[2..], Indicator(p));
    SumOfFront(us[3..], Indicator(p));
    SumOfFront(us[4..], Indicator(p));
    SumOfFront(us[5..], Indicator(p));
    assert us[6..] == [];
  }

  lemma RoleCountFormula(us: seq<Row<User>>, role: Role)
    requires |us| == 6
    ensures UserRepository.CountByRole(us, role)
        == Ind(us[0].val.role == role) + Ind(us[1].val.role == role) + Ind(us[2].val.role == role)
         + Ind(us[3].val.role == role) + Ind(us[4].val.role == role) + Ind(us[5].val.role == role)
  {
    var p := KeyIs(UserRepository.RoleOf, role);
    assert forall x :: p(x) == (x.val.role == role);
    assert forall x :: Indicator(p)(x) == Ind(x.val.role == role);
    UserCountSteps(us, p);
  }

  lemma SeedRoles(encode: string -> string, defaultStatus: UserStatus)
    ensures var u := UserRows(encode, defaultStatus);
      && u[0].val.role == ADMIN && u[1].val.role == ADMIN && u[2].val.role == ADMIN
      && u[3].val.role == CUSTOMER && u[4].val.role == CUSTOMER && u[5].val.role == MODERATOR
  {
  }

  /** Three administrators, two customers and one moderator. */
  lemma SeededRoleCount(encode: string -> string, defaultStatus: UserStatus, role: Role)
    ensures UserRepository.CountByRole(UserRows(encode, defaultStatus), role)
            == match role case ADMIN => 3 case CUSTOMER => 2 case MODERATOR => 1
  {
    SeedRoles(encode, defaultStatus);
    RoleCountFormula(UserRows(encode, defaultStatus), role);
  }

  /** Bob is the one user created INACTIVE; the other five get the default
      status, so they count as active exactly when that default is ACTIVE. */
  lemma SeededActiveCount(encode: string -> string, defaultStatus: UserStatus)
    ensures UserRepository.CountActiveUsers(UserRows(encode, defaultStatus))
            == if defaultStatus == ACTIVE then 5 else 0
  {
    var us := UserRows(encode, defaultStatus);
    var p := KeyIs(UserRepository.StatusOf, ACTIVE);
    assert forall x :: p(x) == (x.val.status == ACTIVE);
    assert forall x :: Indicator(p)(x) == Ind(x.val.status == ACTIVE);
    UserCountSteps(us, p);
  }

  function SalesRows(): seq<Row<SalesData>>
  {
    var d := SeedSalesData();
    [ Row(1, d[0]), Row(2, d[1]), Row(3, d[2]), Row(4, d[3]), Row(5, d[4]), Row(6, d[5]),
      Row(7, d[6]), Row(8, d[7]), Row(9, d[8]), Row(10, d[9]), Row(11, d[10]), Row(12, d[11]) ]
  }

  lemma NumberedSalesRows()
    ensures Numbered(SeedSalesData(), 1) == SalesRows()
  {
    var n := Numbered(SeedSalesData(), 1);
    assert forall i :: 0 <= i < 12 ==> n[i] == SalesRows()[i];
  }

  lemma SeededSalesRows(encode: string -> string, defaultStatus: UserStatus)
    ensures Seeded(encode, defaultStatus).salesData.rows == SalesRows()
  {
    NumberedSalesRows();
  }

  /** The twelve monthly amounts add up to 70000.00. */
  lemma SalesAmounts()
    ensures SumOf(SalesRows(), SalesDataRepository.AmountOf) == 7000000
  {
    var s := SalesRows();
    var a := SalesDataRepository.AmountOf;
    SumOfFront(s, a);
    SumOfFront(s[1..], a);
    SumOfFront(s[2..], a);
    SumOfFront(s[3..], a);
    SumOfFront(s[4..], a);
    SumOfFront(s[5..], a);
    SumOfFront(s[6..], a);
    SumOfFront(s[7..], a);
    SumOfFront(s[8..], a);
    SumOfFront(s[9..], a);
    SumOfFront(s[10..], a);
    SumOfFront(s[11..], a);
    assert s[12..] == [];
  }

  /** Every seeded amount fits the NUMERIC(10,2) `sales` column, so none
      of the twelve saves is rejected by the database. */
  lemma SeededAmountsFit()
    ensures forall i :: 0 <= i < |SeedSalesData()| ==> 0 < SeedSalesData()[i].sales && FitsColumn(SeedSalesData()[i].sales)
  {
    assert Pow10(Precision) == 10_000_000_000;
    var d := SeedSalesData();
    assert forall i :: 0 <= i < 12 ==> 0 < d[i].sales <= 750000;
  }

  lemma SalesCategories()
    ensures (set r | r in SalesRows() :: r.val.category) == {None}
  {
    var s := SalesRows();
    assert forall r :: r in s ==> r.val.category == None;
    assert s[0] in s;
  }

  /** No seeded row has a category, so grouping by category yields the
      single no-category group holding the whole 70000.00. */
  lemma SeededSalesByCategory()
    ensures SalesDataRepository.GetSalesByCategory(SalesRows()) == [Group(None, 7000000)]
  {
    var r := SalesDataRepository.GetSalesByCategory(SalesRows());
    SalesCategories();
    SalesAmounts();
    SingleKey(r, None);
  }

  /** Two earbuds and one wallet at the seeded prices. */
  function SampleItems(): seq<OrderItem>
  {
    [OrderItem(1, 2, 5999, 11998), OrderItem(2, 1, 3999, 3999)]
  }

  lemma SampleQuantities(productId: Id)
    ensures OrderService.QuantityFor(SampleItems(), productId)
            == if productId == 1 then 2 else if productId == 2 then 1 else 0
  {
    var items := SampleItems();
    OrderService.QuantityForCons(items, productId);
    OrderService.QuantityForCons(items[1..], productId);
    assert items[1..][1..] == [];
  }

  lemma SampleTotal()
    ensures SumOf(SampleItems(), OrderService.ItemTotalOf) == 15997
  {
    var items := SampleItems();
    SumOfFront(items, OrderService.ItemTotalOf);
    SumOfFront(items[1..], OrderService.ItemTotalOf);
    assert items[2..] == [];
  }

  lemma SampleProductsExist(s: Store)
    requires s.products.rows == ProductRows()
    ensures OrderService.AllProductsExist(s, SampleItems())
  {
    assert s.products.rows[0].id == 1 && s.products.rows[1].id == 2;
  }

  lemma ProductIdsAndSales()
    ensures var ps := ProductRows();
      && |ps| == 5
      && ps[0].id == 1 && ps[1].id == 2 && ps[2].id == 3 && ps[3].id == 4 && ps[4].id == 5
      && ps[0].val.sales == 1200 && ps[1].val.sales == 800 && ps[2].val.sales == 650
      && ps[3].val.sales == 950 && ps[4].val.sales == 720
  {
    SeedSalesAndStocks();
  }

  lemma SampleSalesRaised(ps: seq<Row<Product>>, s: Store, s': Store)
    requires |ps| == 5
    requires ps[0].id == 1 && ps[1].id == 2 && ps[2].id == 3 && ps[3].id == 4 && ps[4].id == 5
    requires ps[0].val.sales == 1200 && ps[1].val.sales == 800 && ps[2].val.sales == 650
    requires ps[3].val.sales == 950 && ps[4].val.sales == 720
    requires s.products.rows == ps
    requires OrderService.SalesRaisedBy(s, s', SampleItems())
    ensures |s'.products.rows| == 5
    ensures s'.products.rows[0].val.sales == 1202 && s'.products.rows[1].val.sales == 801
    ensures s'.products.rows[2].val.sales == 650 && s'.products.rows[3].val.sales == 950
    ensures s'.products.rows[4].val.sales == 720
  {
    var items := SampleItems();
    RaisedRow(s, s', items, 0);
    RaisedRow(s, s', items, 1);
    RaisedRow(s, s', items, 2);
    RaisedRow(s, s', items, 3);
    RaisedRow(s, s', items, 4);
    SampleQuantities(1);
    SampleQuantities(2);
    SampleQuantities(3);
    SampleQuantities(4);
    SampleQuantities(5);
  }

  /** One row of a sales update: its sales rise by its product's quantity. */
  lemma RaisedRow(s: Store, s': Store, items: seq<OrderItem>, i: int)
    requires OrderService.SalesRaisedBy(s, s', items)
    requires 0 <= i < |s.products.rows|
    ensures |s'.products.rows| == |s.products.rows|
    ensures s'.products.rows[i].val.sales == s.products.rows[i].val.sales + OrderService.QuantityFor(items, s.products.rows[i].id)
  {
  }

  /** Ordering two earbuds and a wallet from the seeded catalogue succeeds,
      costs 159.97 whatever total the caller sent, and raises the earbuds'
      sales from 1200 to 1202 and the wallet's from 800 to 801; the other
      products keep theirs. */
  lemma SeededCreateOrder(s: Store, order: Order)
    requires s.products.rows == ProductRows() && Tables.Valid(s.products)
    requires order.items == SampleItems()
    ensures var r := OrderService.CreateOrder(s, order);
      && r.Ok?
      && r.value.1.val.total == 15997
      && |r.value.0.products.rows| == 5
      && r.value.0.products.rows[0].val.sales == 1202
      && r.value.0.products.rows[1].val.sales == 801
      && r.value.0.products.rows[2].val.sales == 650
      && r.value.0.products.rows[3].val.sales == 950
      && r.value.0.products.rows[4].val.sales == 720
  {
    var r := OrderService.CreateOrder(s, order);
    SampleProductsExist(s);
    assert r.Ok?;
    SampleTotal();
    ProductIdsAndSales();
    SampleSalesRaised(ProductRows(), s, r.value.0);
  }
}

=== FILE: seqs.dfy ===
/** Generic sequence folds shared by the repository queries: selection
    (a JPQL WHERE clause), counting, summing and SQL's null-on-empty SUM.
    Every fold runs left to right, so `SumOf` is exactly a stream reduction
    that starts from zero. */
module Seqs {
  import opened Wrappers

  function Last<T>(s: seq<T>): T
    requires |s| > 0
  {
    s[|s| - 1]
  }

  /** Everything but the last element. */
  function Init<T>(s: seq<T>): seq<T>
    requires |s| > 0
  {
    s[..|s| - 1]
  }

  lemma InitLast<T>(s: seq<T>)
    requires |s| > 0
    ensures s == Init(s) + [Last(s)]
  {
  }

  /** The first `n` elements, or all of them when there are fewer
      (the first page of size `n`). */
  function Take<T>(s: seq<T>, n: nat): (r: seq<T>)
    ensures |r| == if n < |s| then n else |s|
    ensures r <= s
  {
    if n < |s| then s[..n] else s
  }

  /** The elements of `s` that satisfy `p`, in their original order. */
  function Filter<T(!new)>(s: seq<T>, p: T -> bool): (r: seq<T>)
    ensures forall x :: x in r <==> x in s && p(x)
    ensures forall x :: multiset(r)[x] == if p(x) then multiset(s)[x] else 0
    ensures |r| <= |s|
  {
    if s == [] then []
    else
      InitLast(s);
      Filter(Init(s), p) + (if p(Last(s)) then [Last(s)] else [])
  }

  /** The number of elements of `s` that satisfy `p`, counted one by one. */
  function Count<T(!new)>(s: seq<T>, p: T -> bool): (n: nat)
    ensures n == |Filter(s, p)|
  {
    if s == [] then 0
    else Count(Init(s), p) + (if p(Last(s)) then 1 else 0)
  }

  /** Left fold of `amount` over `s` starting from zero. */
  function SumOf<T>(s: seq<T>, amount: T -> int): int
  {
    if s == [] then 0 else SumOf(Init(s), amount) + amount(Last(s))
  }

  function One<T>(x: T): int
  {
    1
  }

  /** SQL `SUM`: NULL over no rows, otherwise the sum, accumulated row by row
      the way the database does (NULL + x is x for the first row). */
  function SqlSum<T>(s: seq<T>, amount: T -> int): (r: Option<int>)
    ensures r.None? <==> s == []
    ensures r.Some? ==> r.value == SumOf(s, amount)
  {
    if s == [] then None
    else
      var acc := SqlSum(Init(s), amount);
      Some(acc.GetOr(0) + amount(Last(s)))
  }

  /** Splitting off the last element of a concatenation with a non-empty
      right part only touches the right part. */
  lemma InitAppend<T>(a: seq<T>, b: seq<T>)
    requires b != []
    ensures Init(a + b) == a + Init(b) && Last(a + b) == Last(b)
  {
  }

  lemma {:induction false} SumOfAppend<T>(a: seq<T>, b: seq<T>, amount: T -> int)
    ensures SumOf(a + b, amount) == SumOf(a, amount) + SumOf(b, amount)
    decreases |b|
  {
    if b != [] {
      assert Init(a + b) == a + Init(b);
      SumOfAppend(a, Init(b), amount);
    } else {
      assert a + b == a;
    }
  }

  lemma SumOfCons<T>(x: T, s: seq<T>, amount: T -> int)
    ensures SumOf([x] + s, amount) == amount(x) + SumOf(s, amount)
  {
    SumOfAppend([x], s, amount);
    assert Init([x]) == [];
  }

  /** Counting is summing ones. */
  lemma {:induction false} SumOfOneIsLength<T>(s: seq<T>)
    ensures SumOf(s, One) == |s|
  {
    if s != [] {
      SumOfOneIsLength(Init(s));
    }
  }

  /** Every element satisfies exactly one of `p` and its negation. */
  lemma {:induction false} CountSplit<T(!new)>(s: seq<T>, p: T -> bool, q: T -> bool)
    requires forall x :: x in s ==> (p(x) <==> !q(x))
    ensures Count(s, p) + Count(s, q) == |s|
  {
    if s != [] {
      CountSplit(Init(s), p, q);
    }
  }

  lemma {:induction false} FilterAppend<T(!new)>(a: seq<T>, b: seq<T>, p: T -> bool)
    ensures Filter(a + b, p) == Filter(a, p) + Filter(b, p)
    decreases |b|
  {
    if b == [] {
      assert a + b == a;
    } else {
      var x := Last(b);
      assert Init(a + b) == a + Init(b);
      assert Last(a + b) == x;
      var tail := if p(x) then [x] else [];
      calc {
        Filter(a + b, p);
        Filter(a + Init(b), p) + tail;
        { FilterAppend(a, Init(b), p); }
        Filter(a, p) + Filter(Init(b), p) + tail;
        Filter(a, p) + (Filter(Init(b), p) + tail);
      }
    }
  }

  /** Selection seen from the front: the head is kept or dropped, then the
      rest is selected. */
  lemma FilterFront<T(!new)>(s: seq<T>, p: T -> bool)
    requires s != []
    ensures Filter(s, p) == (if p(s[0]) then [s[0]] else []) + Filter(s[1..], p)
  {
    var head := [s[0]];
    assert Filter(head, p) == (if p(s[0]) then head else []) by {
      assert Init(head) == [] && Last(head) == s[0];
    }
    assert s == head + s[1..];
    FilterAppend(head, s[1..], p);
  }

  /** A condition every element meets selects the whole sequence. */
  lemma {:induction false} FilterKeepsAll<T(!new)>(s: seq<T>, p: T -> bool)
    requires forall x :: x in s ==> p(x)
    ensures Filter(s, p) == s
  {
    if s != [] {
      assert forall x :: x in Init(s) ==> x in s;
      FilterKeepsAll(Init(s), p);
      InitLast(s);
    }
  }

  /** Summation seen from the front. */
  lemma SumOfFront<T>(s: seq<T>, amount: T -> int)
    requires s != []
    ensures SumOf(s, amount) == amount(s[0]) + SumOf(s[1..], amount)
  {
    assert s == [s[0]] + s[1..];
    SumOfCons(s[0], s[1..], amount);
  }

  /** A condition no element meets selects nothing. */
  lemma FilterDropsAll<T(!new)>(s: seq<T>, p: T -> bool)
    requires forall i :: 0 <= i < |s| ==> !p(s[i])
    ensures Filter(s, p) == []
  {
  }

  function Ind(b: bool): nat
  {
    if b then 1 else 0
  }

  /** One for the elements that satisfy `p`, zero for the others. */
  function Indicator<T>(p: T -> bool): T -> int
  {
    (x: T) => Ind(p(x))
  }

  /** Counting is summing the indicator. */
  lemma {:induction false} CountIsSum<T(!new)>(s: seq<T>, p: T -> bool)
    ensures Count(s, p) == SumOf(s, Indicator(p))
  {
    if s != [] {
      CountIsSum(Init(s), p);
    }
  }
}

=== FILE: sorting.dfy ===
/** `ORDER BY key ASC|DESC` as a stable insertion sort over a sequence, with
    its two defining facts: the result is ordered and is a permutation of
    the input. */
module Sorting {

  datatype Direction = Asc | Desc

  predicate InOrder(dir: Direction, a: int, b: int)
  {
    if dir == Asc then a <= b else a >= b
  }

  ghost predicate SortedBy<T>(s: seq<T>, key: T -> int, dir: Direction)
  {
    forall i, j :: 0 <= i < j < |s| ==> InOrder(dir, key(s[i]), key(s[j]))
  }

  /** Inserts `x` into the sorted `s` before the first element it may precede. */
  function Insert<T>(x: T, s: seq<T>, key: T -> int, dir: Direction): (r: seq<T>)
    requires SortedBy(s, key, dir)
    ensures SortedBy(r, key, dir)
    ensures multiset(r) == multiset(s) + multiset{x}
  {
    if s == [] then [x]
    else if InOrder(dir, key(x), key(s[0])) then [x] + s
    else
      var rest := Insert(x, s[1..], key, dir);
      assert s == [s[0]] + s[1..];
      assert forall j :: 0 <= j < |rest| ==> InOrder(dir, key(s[0]), key(rest[j])) by {
        forall j | 0 <= j < |rest|
          ensures InOrder(dir, key(s[0]), key(rest[j]))
        {
          assert rest[j] in multiset(rest);
          if rest[j] != x {
            assert rest[j] in multiset(s[1..]);
            var k :| 0 <= k < |s[1..]| && s[1..][k] == rest[j];
            assert s[k + 1] == rest[j];
          }
        }
      }
      [s[0]] + rest
  }

  function Sort<T>(s: seq<T>, key: T -> int, dir: Direction): (r: seq<T>)
    ensures SortedBy(r, key, dir)
    ensures multiset(r) == multiset(s)
    ensures |r| == |s|
  {
    if s == [] then []
    else
      assert s == [s[0]] + s[1..];
      Insert(s[0], Sort(s[1..], key, dir), key, dir)
  }

  /** In a sorted sequence, everything past the first `n` elements comes
      after each of them in the ordering. */
  lemma PrefixDominates<T>(s: seq<T>, n: nat, key: T -> int, dir: Direction)
    requires SortedBy(s, key, dir) && n <= |s|
    ensures multiset(s) == multiset(s[..n]) + multiset(s[n..])
    ensures forall x, i :: x in multiset(s) - multiset(s[..n]) && 0 <= i < n ==> InOrder(dir, key(s[i]), key(x))
  {
    assert s == s[..n] + s[n..];
    forall x, i | x in multiset(s) - multiset(s[..n]) && 0 <= i < n
      ensures InOrder(dir, key(s[i]), key(x))
    {
      assert x in s[n..];
      var k :| 0 <= k < |s[n..]| && s[n..][k] == x;
      assert s[n + k] == x;
    }
  }

  /** Sorting a sequence inserts its head into the sorted tail. */
  lemma SortCons<T>(x: T, s: seq<T>, key: T -> int, dir: Direction)
    ensures Sort([x] + s, key, dir) == Insert(x, Sort(s, key, dir), key, dir)
  {
    assert ([x] + s)[1..] == s;
  }

  /** An element that may precede the head goes in front of it. */
  lemma InsertBefore<T>(x: T, h: T, t: seq<T>, key: T -> int, dir: Direction)
    requires SortedBy([h] + t, key, dir)
    requires InOrder(dir, key(x), key(h))
    ensures Insert(x, [h] + t, key, dir) == [x] + ([h] + t)
  {
  }

  /** An element that may not precede the head goes somewhere after it. */
  lemma InsertAfter<T>(x: T, h: T, t: seq<T>, key: T -> int, dir: Direction)
    requires SortedBy([h] + t, key, dir)
    requires !InOrder(dir, key(x), key(h))
    ensures SortedBy(t, key, dir)
    ensures Insert(x, [h] + t, key, dir) == [h] + Insert(x, t, key, dir)
  {
    assert ([h] + t)[1..] == t;
    forall i, j | 0 <= i < j < |t| ensures InOrder(dir, key(t[i]), key(t[j])) {
      assert t[i] == ([h] + t)[i + 1] && t[j] == ([h] + t)[j + 1];
    }
  }

  /** One step of the sort traced from the back: the new head goes in front
      of the sorted tail's head. */
  lemma SortStepBefore<T>(x: T, s: seq<T>, h: T, t: seq<T>, key: T -> int, dir: Direction)
    requires Sort(s, key, dir) == [h] + t
    requires InOrder(dir, key(x), key(h))
    ensures Sort([x] + s, key, dir) == [x] + ([h] + t)
  {
    SortCons(x, s, key, dir);
    InsertBefore(x, h, t, key, dir);
  }

  /** One step of the sort traced from the back: the new head goes somewhere
      after the sorted tail's head. */
  lemma SortStepAfter<T>(x: T, s: seq<T>, h: T, t: seq<T>, key: T -> int, dir: Direction)
    requires Sort(s, key, dir) == [h] + t
    requires !InOrder(dir, key(x), key(h))
    ensures SortedBy(t, key, dir)
    ensures Sort([x] + s, key, dir) == [h] + Insert(x, t, key, dir)
  {
    SortCons(x, s, key, dir);
    InsertAfter(x, h, t, key, dir);
  }

  lemma SortSingleton<T>(x: T, key: T -> int, dir: Direction)
    ensures Sort([x], key, dir) == [x] + []
  {
    SortCons(x, [], key, dir);
    assert [x] + [] == [x];
  }
}

=== FILE: tables.dfy ===
/** A persisted table: rows in primary-key order (the order in which a query
    without ORDER BY returns them), each carrying the id the store assigned
    on first save, and the next identity value. Entity records themselves
    carry no id: a freshly constructed entity has none until it is saved. */
module Tables {
  import opened Wrappers

  type Id = nat

  datatype Row<T> = Row(id: Id, val: T)

  datatype Table<T> = Table(rows: seq<Row<T>>, nextId: Id)

  /** Ids strictly increase along the rows and are all below `nextId`. */
  ghost predicate Valid<T>(t: Table<T>)
  {
    && Increasing(t.rows)
    && (forall i :: 0 <= i < |t.rows| ==> t.rows[i].id < t.nextId)
  }

  /** An empty table whose identity column starts at 1. */
  function Empty<T>(): (t: Table<T>)
    ensures Valid(t) && |t.rows| == 0
  {
    Table([], 1)
  }

  /** `existsById`. */
  predicate ExistsById<T>(t: Table<T>, id: Id)
  {
    exists i :: 0 <= i < |t.rows| && t.rows[i].id == id
  }

  /** `findById`: the value of the first row with that id. */
  function FindById<T>(rows: seq<Row<T>>, id: Id): (r: Option<T>)
    ensures r.None? <==> forall i :: 0 <= i < |rows| ==> rows[i].id != id
    ensures r.Some? ==> Row(id, r.value) in rows
  {
    if rows == [] then None
    else if rows[0].id == id then Some(rows[0].val)
    else
      var r := FindById(rows[1..], id);
      assert forall i :: 1 <= i < |rows| ==> rows[i] == rows[1..][i - 1];
      r
  }

  /** A single-result query that matched more than one row: Spring Data's
      `IncorrectResultSizeDataAccessException`. */
  datatype QueryError = IncorrectResultSize

  /** Two different rows satisfy `p`. */
  ghost predicate Shared<T>(rows: seq<Row<T>>, p: Row<T> -> bool)
  {
    exists i, j :: 0 <= i < j < |rows| && p(rows[i]) && p(rows[j])
  }

  /** A derived finder returning `Optional`: empty when no row satisfies
      `p`, the row when exactly one does, and an error when several do. */
  function FindOne<T>(rows: seq<Row<T>>, p: Row<T> -> bool): (r: Result<Option<Row<T>>, QueryError>)
    ensures r.Err? <==> Shared(rows, p)
    ensures r == Ok(None) <==> forall o :: o in rows ==> !p(o)
    ensures r.Ok? && r.value.Some? ==>
              && r.value.value in rows
              && p(r.value.value)
              && forall o :: o in rows && p(o) ==> o == r.value.value
  {
    if rows == [] then Ok(None)
    else
      var rest := FindOne(rows[1..], p);
      assert forall i :: 1 <= i < |rows| ==> rows[i] == rows[1..][i - 1];
      assert Shared(rows[1..], p) ==> Shared(rows, p) by {
        if Shared(rows[1..], p) {
          var i, j :| 0 <= i < j < |rows[1..]| && p(rows[1..][i]) && p(rows[1..][j]);
          assert p(rows[i + 1]) && p(rows[j + 1]);
        }
      }
      if !p(rows[0]) then
        assert Shared(rows, p) ==> Shared(rows[1..], p) by {
          if Shared(rows, p) {
            var i, j :| 0 <= i < j < |rows| && p(rows[i]) && p(rows[j]);
            assert p(rows[1..][i - 1]) && p(rows[1..][j - 1]);
          }
        }
        rest
      else if rest == Ok(None) then
        assert forall j :: 1 <= j < |rows| ==> !p(rows[j]) by {
          forall j | 1 <= j < |rows| ensures !p(rows[j]) {
            assert rows[j] in rows[1..];
          }
        }
        Ok(Some(rows[0]))
      else
        assert Shared(rows, p) by {
          var o :| o in rows[1..] && p(o);
          var j :| 0 <= j < |rows[1..]| && rows[1..][j] == o;
          assert rows[j + 1] == o;
        }
        Err(IncorrectResultSize)
  }

  /** In a valid table the row found is the one with that id. */
  lemma FindByIdUnique<T>(t: Table<T>, id: Id, i: int)
    requires Valid(t) && 0 <= i < |t.rows| && t.rows[i].id == id
    ensures FindById(t.rows, id) == Some(t.rows[i].val)
  {
    var r := FindById(t.rows, id);
    var j :| 0 <= j < |t.rows| && t.rows[j] == Row(id, r.value);
    assert i == j;
  }

  /** With distinct ids (as in a valid table), the value found for an id is
      the value of every row with that id. */
  lemma FoundIsStored<T>(t: Table<T>, id: Id, v: T)
    requires FindById(t.rows, id) == Some(v)
    ensures Valid(t) ==> forall i :: 0 <= i < |t.rows| && t.rows[i].id == id ==> t.rows[i].val == v
  {
    if Valid(t) {
      forall i | 0 <= i < |t.rows| && t.rows[i].id == id ensures t.rows[i].val == v {
        FindByIdUnique(t, id, i);
      }
    }
  }

  /** `save` of a new entity: appended under the next identity value. */
  function Insert<T>(t: Table<T>, v: T): (r: (Table<T>, Row<T>))
    ensures r.1.val == v
    ensures Valid(t) ==> !ExistsById(t, r.1.id)
    ensures r.0.rows == t.rows + [r.1]
    ensures Valid(t) ==> Valid(r.0)
  {
    var row := Row(t.nextId, v);
    (Table(t.rows + [row], t.nextId + 1), row)
  }

  /** `saveAll` of new entities, in order. */
  function InsertAll<T>(t: Table<T>, vs: seq<T>): (r: Table<T>)
    ensures Valid(t) ==> Valid(r)
    ensures |r.rows| == |t.rows| + |vs|
    ensures r.rows[..|t.rows|] == t.rows
    ensures forall i :: 0 <= i < |vs| ==> r.rows[|t.rows| + i] == Row(t.nextId + i, vs[i])
    ensures r.nextId == t.nextId + |vs|
    decreases |vs|
  {
    if vs == [] then t
    else
      var r := InsertAll(Insert(t, vs[0]).0, vs[1..]);
      assert forall i :: 1 <= i < |vs| ==> vs[i] == vs[1..][i - 1];
      r
  }

  /** `save` of a managed entity: the row with `id` now holds `v`. */
  function Put<T>(rows: seq<Row<T>>, id: Id, v: T): (r: seq<Row<T>>)
    ensures |r| == |rows|
    ensures forall i :: 0 <= i < |rows| ==> r[i].id == rows[i].id
    ensures forall i :: 0 <= i < |rows| ==> r[i].val == if rows[i].id == id then v else rows[i].val
  {
    if rows == [] then []
    else [Row(rows[0].id, if rows[0].id == id then v else rows[0].val)] + Put(rows[1..], id, v)
  }

  /** `deleteById`: every row except the ones with `id`, in order. */
  function Remove<T(!new)>(rows: seq<Row<T>>, id: Id): (r: seq<Row<T>>)
    ensures forall x :: x in r <==> x in rows && x.id != id
  {
    if rows == [] then []
    else if rows[0].id == id then Remove(rows[1..], id)
    else [rows[0]] + Remove(rows[1..], id)
  }

  ghost predicate Increasing<T>(rows: seq<Row<T>>)
  {
    forall i, j :: 0 <= i < j < |rows| ==> rows[i].id < rows[j].id
  }

  lemma {:induction false} RemoveIncreasing<T(!new)>(rows: seq<Row<T>>, id: Id)
    requires Increasing(rows)
    ensures Increasing(Remove(rows, id))
  {
    if rows != [] {
      RemoveIncreasing(rows[1..], id);
      var rest := Remove(rows[1..], id);
      forall j | 0 <= j < |rest| ensures rows[0].id < rest[j].id {
        assert rest[j] in rows[1..];
      }
    }
  }

  lemma RemoveKeepsValid<T(!new)>(t: Table<T>, id: Id)
    requires Valid(t)
    ensures Valid(Table(Remove(t.rows, id), t.nextId))
  {
    RemoveIncreasing(t.rows, id);
    var r := Remove(t.rows, id);
    forall i | 0 <= i < |r| ensures r[i].id < t.nextId {
      assert r[i] in t.rows;
    }
  }

  /** Deleting an existing id from a valid table removes exactly one row. */
  lemma {:induction false} RemoveOne<T(!new)>(rows: seq<Row<T>>, id: Id, i: int)
    requires Increasing(rows)
    requires 0 <= i < |rows| && rows[i].id == id
    ensures |Remove(rows, id)| == |rows| - 1
  {
    if i == 0 {
      RemoveNone(rows[1..], id);
    } else {
      RemoveOne(rows[1..], id, i - 1);
    }
  }

  lemma {:induction false} RemoveNone<T(!new)>(rows: seq<Row<T>>, id: Id)
    requires forall a :: 0 <= a < |rows| ==> rows[a].id != id
    ensures Remove(rows, id) == rows
  {
    if rows != [] {
      RemoveNone(rows[1..], id);
    }
  }

  /** `t'` has the same rows, ids and identity counter as `t`, except that
      rows with `id` may hold a different value. */
  ghost predicate SameExcept<T>(t: Table<T>, t': Table<T>, id: Id)
  {
    && t'.nextId == t.nextId
    && |t'.rows| == |t.rows|
    && forall i :: 0 <= i < |t.rows| ==> t'.rows[i].id == t.rows[i].id && (t.rows[i].id != id ==> t'.rows[i] == t.rows[i])
  }

  /** The stored entity with `id` replaced by `v`. */
  function Update<T>(t: Table<T>, id: Id, v: T): (r: Table<T>)
    ensures SameExcept(t, r, id)
    ensures forall i :: 0 <= i < |t.rows| && t.rows[i].id == id ==> r.rows[i].val == v
    ensures Valid(t) ==> Valid(r)
  {
    Table(Put(t.rows, id, v), t.nextId)
  }

  /** `deleteById` on a table. */
  function Delete<T(!new)>(t: Table<T>, id: Id): (r: Table<T>)
    ensures forall x :: x in r.rows <==> x in t.rows && x.id != id
    ensures Valid(t) ==> Valid(r)
    ensures Valid(t) && ExistsById(t, id) ==> |r.rows| == |t.rows| - 1
  {
    DeleteFacts(t, id);
    Table(Remove(t.rows, id), t.nextId)
  }

  lemma DeleteFacts<T(!new)>(t: Table<T>, id: Id)
    ensures Valid(t) ==> Valid(Table(Remove(t.rows, id), t.nextId))
    ensures Valid(t) && ExistsById(t, id) ==> |Remove(t.rows, id)| == |t.rows| - 1
  {
    if Valid(t) {
      RemoveKeepsValid(t, id);
      if ExistsById(t, id) {
        var i :| 0 <= i < |t.rows| && t.rows[i].id == id;
        RemoveOne(t.rows, id, i);
      }
    }
  }

  lemma SameExceptKeepsIds<T>(t: Table<T>, t': Table<T>, id: Id)
    requires SameExcept(t, t', id)
    ensures Valid(t) ==> Valid(t')
    ensures forall k :: ExistsById(t, k) <==> ExistsById(t', k)
  {
    forall k ensures ExistsById(t, k) <==> ExistsById(t', k) {
      if ExistsById(t', k) {
        var i :| 0 <= i < |t'.rows| && t'.rows[i].id == k;
        assert t.rows[i].id == k;
      }
    }
  }
}

=== FILE: text.dfy ===
/** String helpers behind the search queries and the request layer: ASCII
    lower-casing (the database's LOWER and Java's case-insensitive compare
    on ASCII letters), substring search (LIKE '%term%'), and Java's
    String.trim, which strips every character up to U+0020 from both ends. */
module Text {

  function LowerChar(c: char): char
  {
    if 'A' <= c <= 'Z' then (c as int + 32) as char else c
  }

  function Lower(s: string): (r: string)
    ensures |r| == |s|
    ensures forall i :: 0 <= i < |s| ==> r[i] == LowerChar(s[i])
  {
    seq(|s|, i requires 0 <= i < |s| => LowerChar(s[i]))
  }

  /** `needle` occurs in `hay` at some offset. */
  ghost predicate Occurs(needle: string, hay: string)
  {
    exists i :: 0 <= i <= |hay| && needle <= hay[i..]
  }

  /** Substring search, scanning `hay` from the left. */
  predicate Contains(hay: string, needle: string)
    decreases |hay|
  {
    needle <= hay || (|hay| > 0 && Contains(hay[1..], needle))
  }

  lemma {:induction false} ContainsIsOccurs(hay: string, needle: string)
    ensures Contains(hay, needle) <==> Occurs(needle, hay)
    decreases |hay|
  {
    if needle <= hay {
      assert needle <= hay[0..];
    } else if |hay| > 0 {
      ContainsIsOccurs(hay[1..], needle);
      if Occurs(needle, hay) {
        var i :| 0 <= i <= |hay| && needle <= hay[i..];
        assert i != 0;
        assert hay[1..][i - 1..] == hay[i..];
      }
      if Contains(hay[1..], needle) {
        var i :| 0 <= i <= |hay[1..]| && needle <= hay[1..][i..];
        assert hay[1..][i..] == hay[i + 1..];
      }
    } else {
      assert hay[0..] == hay;
    }
  }

  /** `LOWER(field) LIKE LOWER(CONCAT('%', term, '%'))`, wildcards in `term`
      taken literally. */
  predicate Like(field: string, term: string)
  {
    Contains(Lower(field), Lower(term))
  }

  lemma LikeMeaning(field: string, term: string)
    ensures Like(field, term) <==> Occurs(Lower(term), Lower(field))
  {
    ContainsIsOccurs(Lower(field), Lower(term));
  }

  /** A character String.trim removes. */
  predicate IsSpace(c: char)
  {
    c <= ' '
  }

  /** Index of the first non-space character, or |s|. */
  function TrimStart(s: string, from: nat): (a: nat)
    requires from <= |s|
    requires forall k :: 0 <= k < from ==> IsSpace(s[k])
    ensures from <= a <= |s|
    ensures forall k :: 0 <= k < a ==> IsSpace(s[k])
    ensures a < |s| ==> !IsSpace(s[a])
    decreases |s| - from
  {
    if from < |s| && IsSpace(s[from]) then TrimStart(s, from + 1) else from
  }

  /** One past the last non-space character at or after `a`, or `a`. */
  function TrimEnd(s: string, a: nat, stop: nat): (b: nat)
    requires a <= stop <= |s|
    requires forall k :: stop <= k < |s| ==> IsSpace(s[k])
    ensures a <= b <= stop
    ensures forall k :: b <= k < |s| ==> IsSpace(s[k])
    ensures b > a ==> !IsSpace(s[b - 1])
    decreases stop
  {
    if a < stop && IsSpace(s[stop - 1]) then TrimEnd(s, a, stop - 1) else stop
  }

  /** `r` is the infix of `s` starting at `a`, and everything of `s`
      outside it is space. */
  ghost predicate TrimmedAt(s: string, a: int, r: string)
  {
    && 0 <= a <= |s| - |r|
    && r == s[a..a + |r|]
    && (forall k :: 0 <= k < a ==> IsSpace(s[k]))
    && (forall k :: a + |r| <= k < |s| ==> IsSpace(s[k]))
  }

  /** Java's String.trim: the infix of `s` left after removing spaces and
      control characters at both ends. */
  function Trim(s: string): (r: string)
    ensures |r| == 0 || (!IsSpace(r[0]) && !IsSpace(r[|r| - 1]))
    ensures exists a :: TrimmedAt(s, a, r)
  {
    var a := TrimStart(s, 0);
    var b := TrimEnd(s, a, |s|);
    assert TrimmedAt(s, a, s[a..b]);
    s[a..b]
  }

  /** `s.trim().isEmpty()`. */
  predicate IsBlank(s: string)
  {
    |Trim(s)| == 0
  }

  lemma BlankMeaning(s: string)
    ensures IsBlank(s) <==> forall k :: 0 <= k < |s| ==> IsSpace(s[k])
  {
    var r := Trim(s);
    var a :| TrimmedAt(s, a, r);
    if |r| > 0 {
      assert !IsSpace(s[a]);
    }
  }

  /** `a.equalsIgnoreCase(b)` on ASCII letters. */
  predicate EqualsIgnoreCase(a: string, b: string)
  {
    Lower(a) == Lower(b)
  }

  /** A blank term trims to the empty string, which occurs in every string. */
  lemma BlankTermOccursEverywhere(term: string)
    ensures IsBlank(term) ==> forall hay :: Occurs(Lower(Trim(term)), hay)
  {
    if IsBlank(term) {
      forall hay ensures Occurs(Lower(Trim(term)), hay) {
        assert Lower(Trim(term)) <= hay[0..];
      }
    }
  }
}

=== FILE: user_repository.dfy ===
/** Meaning of the UserRepository queries over the rows of the users table. */
module UserRepository {
  import opened Wrappers
  import opened Tables
  import opened Seqs
  import opened Grouping
  import opened Text
  import opened Entities

  /** `existsByEmail`. */
  predicate ExistsByEmail(users: seq<Row<User>>, email: string)
  {
    exists i :: 0 <= i < |users| && users[i].val.email == email
  }

  function EmailIs(email: string): Row<User> -> bool
  {
    (u: Row<User>) => u.val.email == email
  }

  /** Two different users carry the email. */
  ghost predicate SharedEmail(users: seq<Row<User>>, email: string)
  {
    Shared(users, EmailIs(email))
  }

  /** `findByEmail`, returning `Optional<User>`: empty exactly when
      `existsByEmail` is false, an error when the email is shared, and
      otherwise the one user with that email. */
  function FindByEmail(users: seq<Row<User>>, email: string): (r: Result<Option<Row<User>>, QueryError>)
    ensures r.Err? <==> SharedEmail(users, email)
    ensures r == Ok(None) <==> !ExistsByEmail(users, email)
    ensures r.Ok? && r.value.Some? ==>
              && r.value.value in users
              && r.value.value.val.email == email
              && forall u :: u in users && u.val.email == email ==> u == r.value.value
  {
    var r := FindOne(users, EmailIs(email));
    assert ExistsByEmail(users, email) ==> r != Ok(None) by {
      if ExistsByEmail(users, email) {
        var i :| 0 <= i < |users| && users[i].val.email == email;
        assert EmailIs(email)(users[i]);
      }
    }
    r
  }

  function SearchMatch(term: string): Row<User> -> bool
  {
    (u: Row<User>) => Like(u.val.name, term) || Like(u.val.email, term)
  }

  /** `findBySearchTerm`: users whose name or email contains the term,
      ignoring case. */
  function FindBySearchTerm(users: seq<Row<User>>, term: string): (r: seq<Row<User>>)
    ensures forall u :: u in r <==>
              u in users && (Occurs(Lower(term), Lower(u.val.name)) || Occurs(Lower(term), Lower(u.val.email)))
  {
    forall u ensures SearchMatch(term)(u) <==> (Occurs(Lower(term), Lower(u.val.name)) || Occurs(Lower(term), Lower(u.val.email))) {
      LikeMeaning(u.val.name, term);
      LikeMeaning(u.val.email, term);
    }
    Filter(users, SearchMatch(term))
  }

  function StatusOf(u: Row<User>): UserStatus
  {
    u.val.status
  }

  function RoleOf(u: Row<User>): Role
  {
    u.val.role
  }

  /** `countActiveUsers`: `status = 'ACTIVE'`. */
  function CountActiveUsers(users: seq<Row<User>>): (n: nat)
    ensures n == |Filter(users, KeyIs(StatusOf, ACTIVE))|
    ensures forall u :: u in Filter(users, KeyIs(StatusOf, ACTIVE)) <==> u in users && u.val.status == ACTIVE
  {
    assert forall u :: KeyIs(StatusOf, ACTIVE)(u) <==> StatusOf(u) == ACTIVE;
    Count(users, KeyIs(StatusOf, ACTIVE))
  }

  /** `countByRole`. */
  function CountByRole(users: seq<Row<User>>, role: Role): (n: nat)
    ensures n == |Filter(users, KeyIs(RoleOf, role))|
    ensures forall u :: u in Filter(users, KeyIs(RoleOf, role)) <==> u in users && u.val.role == role
  {
    assert forall u :: KeyIs(RoleOf, role)(u) <==> RoleOf(u) == role;
    Count(users, KeyIs(RoleOf, role))
  }

  lemma RoleStep(users: seq<Row<User>>, role: Role)
    requires users != []
    ensures CountByRole(users, role) == CountByRole(Init(users), role) + (if Last(users).val.role == role then 1 else 0)
  {
    assert KeyIs(RoleOf, role)(Last(users)) <==> RoleOf(Last(users)) == role;
  }

  /** Every user has exactly one of the three roles. */
  lemma {:induction false} RoleCountsPartition(users: seq<Row<User>>)
    ensures CountByRole(users, ADMIN) + CountByRole(users, CUSTOMER) + CountByRole(users, MODERATOR) == |users|
  {
    if users != [] {
      RoleCountsPartition(Init(users));
      RoleStep(users, ADMIN);
      RoleStep(users, CUSTOMER);
      RoleStep(users, MODERATOR);
    }
  }
}

=== FILE: wrappers.dfy ===
/** Failure-compatible wrappers: an optional value (Java's null / Optional and
    SQL's NULL) and a result that is either a value or an error. */
module Wrappers {

  datatype Option<+T> = None | Some(value: T) {

    /** The value, or `default` when absent (Java's `x != null ? x : d`). */
    function GetOr(default: T): T {
      match this
      case Some(v) => v
      case None => default
    }
  }

  datatype Result<+T, +E> = Ok(value: T) | Err(error: E)
}
